=== FILE: README.md ===
# Langflow bootstrap scripts: a Dafny model

Two scripts bring a fresh Langflow deployment into shape through its HTTP API:

- `init_public_user.py` logs in as the superuser, with retries. It finds or
  creates the secondary account and re-activates it, logs in as that account
  and mints an API key. It writes the key to the Next.js env file, then uploads
  the public flows: the top-level files first, then one project per
  subdirectory.
- `init_service_user.py` logs in as the superuser, with retries. It mints an API
  key and writes it to the env file. It uploads the service flows: one project
  per subdirectory first, then the top-level files. Finally it writes the ids of
  four named flows to the env file.

The model treats every HTTP response as given data:

- the outcome of superuser login attempt `k`;
- the user and project listings;
- the reply to a create, keyed by name;
- the login reply for the secondary account;
- the `api_key` field of each key mint's reply;
- the listing fetched after creating a project, keyed by that project;
- the status of each upload, keyed by path;
- the service script's flow listing: its status and, when it is a JSON list,
  its records.

The directory layout is given as the top-level file names and the
`(subdirectory, files)` pairs.

A run yields a `Run` value with these parts:

- how the run ended: `Completed`, or `Fatal` for `sys.exit(1)`;
- the result of the login loop, including the number of attempts and sleeps;
- the env file's final lines;
- the ordered trace of state-changing calls: user create, activation, key mint,
  env write, project create and flow upload;
- the uploads logged as failed.

The modules are:

- `Common`: optional values, Python truthiness, f-string rendering of `None`.
- `Api`: response and request records, and the effect trace.
- `EnvFile`: `add_value_to_env_file` on a list of lines, with Python's `strip()`.
- `Login`: the 15-attempt retry loop.
- `FlowUpload`: the upload loops.
- `Reconcile`: find-or-create for the user account and for projects, and the
  per-directory loop.
- `Trace`: the order of uploads within a trace.
- `FlowIds`: last-match extraction of the four flow ids.
- `PublicUser` and `ServiceUser`: the two scripts end to end.

Each loop of the scripts is a Dafny method proved equal to a function on its
inputs. The properties are lemmas about those functions.

Three behaviours of the code that are easy to misread:

- **User and project lookup.** The lookup reads the `id` of the FIRST listed
  record with the name (`next(...)`, or `for`/`break`). If that id is falsy, a
  create is issued even when a later record with the same name has an id
  (`Reconcile.FirstMatchShadowsLater`).
- **Duplicate env lines.** An env update replaces only the first matching line.
  Later duplicate lines for the key stay, so the key can appear more than once
  after a write.
- **The public script's listing status.** The public script keeps a project
  listing only when it has status 201, and the service script only with 200.
  Each file's constant is kept. `Reconcile.PublicDiscardsListingNot201` shows
  that the public script treats any listing served with another status as
  empty, and then issues a create for the directory.

## Model

| member | source | states |
|---|---|---|
| EnvFile.IsSpace | kubernetes/langflow/init/python/init_public_user.py:31 | space, tab, newline and carriage return count as whitespace for `strip()`, and `=` never does |
| EnvFile.LStrip | kubernetes/langflow/init/python/init_public_user.py:31 | `lstrip()` never lengthens the line, and what it leaves is empty or starts with a non-space character (what exactly it removes: `EnvFile.LStripDropsLeadingSpace`) |
| EnvFile.RStrip | kubernetes/langflow/init/python/init_public_user.py:31 | `rstrip()` never lengthens the line, and what it leaves is empty or ends with a non-space character (what exactly it removes: `EnvFile.RStripDropsTrailingSpace`) |
| EnvFile.Strip | kubernetes/langflow/init/python/init_public_user.py:31 | `strip()` never lengthens the line, and what it leaves is empty or starts and ends with non-space characters |
| EnvFile.LStripDropsLeadingSpace | kubernetes/langflow/init/python/init_public_user.py:31 | `lstrip()` keeps a suffix of the line and every character it drops is whitespace |
| EnvFile.RStripDropsTrailingSpace | kubernetes/langflow/init/python/init_public_user.py:31 | `rstrip()` keeps a prefix of the line and every character it drops is whitespace, for a line made only of whitespace too |
| EnvFile.LStripSkipsIndent | kubernetes/langflow/init/python/init_public_user.py:31 | whitespace put in front of a line does not change its `lstrip()` |
| EnvFile.LStripKeeps | kubernetes/langflow/init/python/init_public_user.py:31 | `lstrip()` leaves a line that starts with a non-space character unchanged |
| EnvFile.RStripKeepsPrefix | kubernetes/langflow/init/python/init_public_user.py:31 | `rstrip()` keeps a prefix of the line that reaches past any given non-space character |
| EnvFile.FirstMatch | kubernetes/langflow/init/python/init_public_user.py:30-34 | the index the loop stops at: that line's stripped text starts with `key=`, and no earlier line's does |
| EnvFile.FirstMatchAt | kubernetes/langflow/init/python/init_public_user.py:30-34 | any index with a matching line and no earlier match is the one the loop stops at |
| EnvFile.Matches | kubernetes/langflow/init/python/init_public_user.py:31 | the test for a line to be replaced: its stripped text starts with `key=` (its properties are stated by `EnvFile.EnvLineMatches` and `EnvFile.EnvLineMatchesOnlyItsKey`) |
| EnvFile.SetKey | kubernetes/langflow/init/python/init_public_user.py:28-37 | the update of the lines: the first matching line replaced by `key=value\n`, or that line appended when none matches (its properties are stated by the four `SetKey…` lemmas below) |
| EnvFile.SetKeyReplacesFirstMatch | kubernetes/langflow/init/python/init_public_user.py:28-34 | key present: only the first matching line becomes `key=value\n`; the length and every other line (later duplicates included) are unchanged |
| EnvFile.SetKeyAppends | kubernetes/langflow/init/python/init_public_user.py:23-37 | key absent: the result is the old lines followed by `key=value\n`; a missing file (no lines) gives exactly that one line |
| EnvFile.SetKeyWritesLine | kubernetes/langflow/init/python/init_public_user.py:28-37 | after an update the file holds the line `key=value\n` |
| EnvFile.AddValue | kubernetes/langflow/init/python/init_public_user.py:22-40 | the in-place loop with `break` and the `found` flag computes exactly the replace-first-else-append update; the service script's copy (init_service_user.py lines 13-33) is the same |
| EnvFile.EnvLineMatches | kubernetes/langflow/init/python/init_service_user.py:19-22 | the written line passes its own key's match test when the key does not start with whitespace |
| EnvFile.IndentedLineMatches | kubernetes/langflow/init/python/init_public_user.py:30-34 | a `key=value` line indented by any whitespace passes the match test, so an update replaces it |
| EnvFile.BlankLineNeverMatches | kubernetes/langflow/init/python/init_public_user.py:30-34 | a line made only of whitespace, an empty one included, never passes the match test |
| EnvFile.EnvLineMatchesOnlyItsKey | kubernetes/langflow/init/python/init_service_user.py:19-22 | for keys with no `=` and no leading whitespace, a written line passes another key's test exactly when the keys are equal |
| EnvFile.SetKeyIdempotent | kubernetes/langflow/init/python/init_public_user.py:30-37 | writing the same key and value twice gives the lines of writing once (key not starting with whitespace) |
| EnvFile.LeadingSpaceKeyAppendsTwice | kubernetes/langflow/init/python/init_public_user.py:28-37 | counterexample: with key `" A"` the written line never matches, so a second identical write appends a duplicate |
| EnvFile.SetKeyKeepsOtherLine | kubernetes/langflow/init/python/init_service_user.py:207-210 | a written line survives a later write of a different key |
| EnvFile.SetKeysKeepsLine | kubernetes/langflow/init/python/init_service_user.py:207-210 | a written line survives a run of writes of other keys |
| EnvFile.SetKeysWritesAll | kubernetes/langflow/init/python/init_service_user.py:207-210 | after writes of distinct keys each key's own line is in the file |
| Login.RetryFrom | kubernetes/langflow/init/python/init_public_user.py:50-75 | the loop from attempt `i` on makes at most 15 attempts, and sleeps at least `i` times but never more than it attempts |
| Login.RetryFromSpec | kubernetes/langflow/init/python/init_public_user.py:50-75 | a token is taken exactly when some remaining attempt has status 200 and an `access_token`; it is the first such attempt's token, after one sleep per earlier attempt; with no token, 15 attempts and 15 sleeps |
| Login.RetryLogin | kubernetes/langflow/init/python/init_public_user.py:50-75 | the whole loop from the first attempt: between 1 and 15 attempts, and never more sleeps than attempts |
| Login.RetryLoginLoop | kubernetes/langflow/init/python/init_public_user.py:44-75 | the `for attempt in range(MAX_RETRIES)` loop with `break` computes exactly that result; the service script's loop (lines 40-72) is the same |
| Login.StopsAtFirstAccepted | kubernetes/langflow/init/python/init_public_user.py:65-75 | `k` failures followed by a success: `k + 1` attempts, `k` sleeps, that attempt's token |
| Login.ExhaustsRetries | kubernetes/langflow/init/python/init_public_user.py:44-75 | no success: 15 attempts, a sleep after each (30 seconds of waiting at `RETRY_DELAY_SECONDS` = 2), no token |
| Login.EmptyTokenEndsLoop | kubernetes/langflow/init/python/init_public_user.py:65-80 | a 200 response with an empty `access_token` ends the loop at once and leaves a falsy token, which the run treats as fatal |
| FlowUpload.Uploads | kubernetes/langflow/init/python/init_public_user.py:166-177 | one upload per file, in order, each to the given target and with that file's status |
| FlowUpload.UploadsStep | kubernetes/langflow/init/python/init_public_user.py:166-177 | one more turn of the upload loop appends exactly that file's upload |
| FlowUpload.UploadAll | kubernetes/langflow/init/python/init_public_user.py:166-177 | the upload loop computes exactly those uploads, and the ones it logs as failed are exactly those whose status is not the site's accepted one (201 here, 200 in the service script); it also serves the per-project loops and the service script's top-level loop (lines 165-176) |
| FlowUpload.Failures | kubernetes/langflow/init/python/init_public_user.py:174-177 | the uploads logged as failed are exactly those whose status is not the accepted one |
| FlowUpload.FailuresAppend | kubernetes/langflow/init/python/init_public_user.py:174-177 | one more upload extends the failure log by itself exactly when its status is not the accepted one |
| FlowUpload.FailuresConcat | kubernetes/langflow/init/python/init_public_user.py:165-228 | the failures logged by two upload loops run one after the other are those of the first followed by those of the second |
| FlowUpload.FailedUploadContinues | kubernetes/langflow/init/python/init_service_user.py:159-162 | a refused upload is logged as failed and every later file is still uploaded to the same target |
| FlowUpload.FlowEffects | kubernetes/langflow/init/python/init_public_user.py:169-173 | the trace of a sequence of uploads: one upload call each, in order |
| Reconcile.FirstIdByName | kubernetes/langflow/init/python/init_public_user.py:189-190 | `None` when no record has the name; otherwise the id of the first record that has it |
| Reconcile.FindProjectId | kubernetes/langflow/init/python/init_service_user.py:117-122 | the `for`/`break` search returns the first match's id |
| Reconcile.EnsureUser | kubernetes/langflow/init/python/init_public_user.py:86-118 | a create is issued exactly when the first listed match has no truthy id, and then exactly once; the step fails exactly when that create is not 201; only that create and activations are issued; when ready, exactly one activation, issued last, for the found or created id |
| Reconcile.FirstMatchShadowsLater | kubernetes/langflow/init/python/init_public_user.py:90-93 | a first match without an id forces a create, whatever later entries hold |
| Reconcile.Resolve | kubernetes/langflow/init/python/init_public_user.py:189-207 | the project is reused exactly when the first match has a truthy id; it is created exactly when not reused and the create status is the site's success status; otherwise the create failed |
| Reconcile.Accept | kubernetes/langflow/init/python/init_public_user.py:181 | a listing is kept exactly when its status is the site's accepted one (201 here, 200 at init_service_user.py lines 107 and 146); otherwise it counts as empty |
| Reconcile.ProcessDir | kubernetes/langflow/init/python/init_public_user.py:186-228 | one directory's report: resolved against the listing in effect; a refused create leaves it no uploads; otherwise one upload per file |
| Reconcile.After | kubernetes/langflow/init/python/init_public_user.py:210-212 | the listing is replaced only after a successful create (by the refreshed listing, kept by `Reconcile.Accept`); otherwise the next directory sees the same listing |
| Reconcile.ReconcileAll | kubernetes/langflow/init/python/init_public_user.py:183-228 | one report per directory |
| Reconcile.ReconcileAllReports | kubernetes/langflow/init/python/init_public_user.py:183-228 | each directory is resolved against the listing in effect (the initial one, refreshed after each successful create); a failed create leaves it without uploads; otherwise its files are uploaded with the resolved `folder_id` |
| Reconcile.ReconcileDir | kubernetes/langflow/init/python/init_service_user.py:110-162 | one turn of the directory loop, `continue` on a refused create included, gives that directory's report and next listing, and logs as failed exactly its uploads whose status is not the accepted one |
| Reconcile.ReconcileAllFrom | kubernetes/langflow/init/python/init_service_user.py:110-162 | the reports from directory `i` on are that directory's report followed by the rest against the listing it leaves |
| Reconcile.ReconcileProjects | kubernetes/langflow/init/python/init_public_user.py:180-228 | the directory loop, which reassigns `projects`, computes exactly those reports and logs as failed exactly the project uploads whose status is not the accepted one; it also serves the service script's loop (lines 105-162), with 200 as the accepted status |
| Reconcile.FailedCreateSkipsOnlyItsDir | kubernetes/langflow/init/python/init_public_user.py:204-206 | a refused create leaves its directory without uploads, and the next directory is still processed against the same listing |
| Reconcile.PublicDiscardsListingNot201 | kubernetes/langflow/init/python/init_public_user.py:180-181 | in the public script a listing whose status is not 201 counts as empty, so the first directory is never reused |
| Trace.ReportEffects | kubernetes/langflow/init/python/init_public_user.py:192-228 | a directory's calls: exactly one project create, first, when the project was not reused (with the create's status), none when it was; one call per upload besides (which uploads, and in what order: `Trace.ReportEffectsTraced`) |
| Trace.DirEffects | kubernetes/langflow/init/python/init_public_user.py:183-228 | the directory phase's calls are project creates and uploads only, and every upload of every directory is among them (which ones, and in what order: `Trace.DirEffectsTraced`) |
| Trace.CreateOf | kubernetes/langflow/init/python/init_public_user.py:192-206 | a directory's turn issues one project create exactly when its project was not reused |
| Trace.ProjectCreates | kubernetes/langflow/init/python/init_public_user.py:183-206 | the creates expected of the directory phase: at most one per directory |
| Trace.UploadedConcat | kubernetes/langflow/init/python/init_public_user.py:165-228 | the uploads of two traces one after the other are those of the first, then those of the second |
| Trace.CreatedConcat | kubernetes/langflow/init/python/init_public_user.py:183-206 | the project creates of two traces one after the other are those of the first, then those of the second |
| Trace.FlowEffectsUploaded | kubernetes/langflow/init/python/init_public_user.py:166-177 | the calls of an upload loop make exactly its uploads, in order, and no project create |
| Trace.ReportEffectsTraced | kubernetes/langflow/init/python/init_public_user.py:192-228 | a directory's calls make exactly its uploads, in order, and exactly its own project create |
| Trace.ProjectUploadsCons | kubernetes/langflow/init/python/init_service_user.py:110-162 | the uploads of a directory followed by others are its own, then the others' |
| Trace.ProjectCreatesCons | kubernetes/langflow/init/python/init_service_user.py:110-162 | the expected creates of a directory followed by others are its own, then the others' |
| Trace.DirEffectsTraced | kubernetes/langflow/init/python/init_public_user.py:183-228 | the directory phase makes exactly the directories' uploads, and exactly one project create per directory whose project was not reused, both in directory order |
| Trace.ProcessDirInProject | kubernetes/langflow/init/python/init_public_user.py:216-228 | a directory's calls include no top-level upload and no env write |
| Trace.DirEffectsInProjects | kubernetes/langflow/init/python/init_public_user.py:183-228 | the whole directory phase makes no top-level upload and no env write |
| Trace.TopLevelEffects | kubernetes/langflow/init/python/init_public_user.py:165-177 | the top-level phase makes no project upload and no env write |
| Trace.TopLevelThenProjects | kubernetes/langflow/init/python/init_public_user.py:165-228 | top-level calls followed by project calls: no top-level upload after a project upload |
| Trace.ProjectsThenTopLevel | kubernetes/langflow/init/python/init_service_user.py:109-176 | project calls followed by top-level calls: no project upload after a top-level upload |
| Trace.AppendKeepsOrder | kubernetes/langflow/init/python/init_public_user.py:160-166 | calls that upload nothing, put in front, keep both upload orders |
| Trace.SuffixKeepsOrder | kubernetes/langflow/init/python/init_service_user.py:178-210 | calls that upload nothing, put behind, keep both upload orders |
| FlowIds.ListedFlows | kubernetes/langflow/init/python/init_service_user.py:184 | the flows are the listing's body when it is a JSON list, and none otherwise |
| FlowIds.LastIdByName | kubernetes/langflow/init/python/init_service_user.py:186-204 | an id found for a name is the id of some flow carrying that name |
| FlowIds.LastIdAbsent | kubernetes/langflow/init/python/init_service_user.py:186-204 | a name no flow carries gets `None` |
| FlowIds.LastIdIsLastMatch | kubernetes/langflow/init/python/init_service_user.py:186-204 | a name gets the id of the last flow carrying it, whatever earlier matches hold |
| FlowIds.SkipUntracked | kubernetes/langflow/init/python/init_service_user.py:190-204 | a flow with another name does not change a name's id |
| FlowIds.UntrackedFlowIgnored | kubernetes/langflow/init/python/init_service_user.py:190-204 | a flow with none of the four names changes none of the four ids, wherever it sits |
| FlowIds.ExtractFlowIds | kubernetes/langflow/init/python/init_service_user.py:184-204 | the `for`/`continue` loop that overwrites four variables yields the last-match id of each tracked name |
| FlowIds.Rendered | kubernetes/langflow/init/python/init_service_user.py:207-210 | each id is written as its text, and an absent id as the text `None` |
| FlowIds.TrackedKeysPlain | kubernetes/langflow/init/python/init_service_user.py:207-210 | the four keys have no `=` and no leading whitespace and are pairwise distinct |
| PublicUser.AccountEffects | kubernetes/langflow/init/python/init_public_user.py:86-158 | the account calls: the user calls first, the key mint exactly when the user step and the user login succeed, and no env write or upload |
| PublicUser.SetUpAccount | kubernetes/langflow/init/python/init_public_user.py:86-158 | a key comes back exactly when the user step is ready, the user login has status 200 and a token, and the minted key is truthy; the calls are exactly the user calls followed by the mint, and the mint is made exactly when the user step and the user login succeed (a refused create or login exits before it); no env write and no upload |
| PublicUser.UploadPublicFlows | kubernetes/langflow/init/python/init_public_user.py:165-228 | the upload phase: top-level uploads, then the directory reports; no top-level upload after a project upload; no env write; the uploads logged as failed are exactly those of the phase whose status is not 201 |
| PublicUser.PublicPhaseTraced | kubernetes/langflow/init/python/init_public_user.py:165-228 | the upload phase's calls make exactly the uploads its failure log is taken from, and one project create per subdirectory whose project was not reused, in order |
| PublicUser.PublishKey | kubernetes/langflow/init/python/init_public_user.py:160-228 | once the key is minted: the key line is written, the upload phase follows, and the run completes with exactly those calls after the account calls and the failures of the phase logged |
| PublicUser.AfterLogin | kubernetes/langflow/init/python/init_public_user.py:86-228 | after a superuser token: the run completes exactly when the account, user login and key steps succeed; a fatal run has made only the account calls and left the env file alone; a completed one has made the account calls, the env write and the upload phase, in that order |
| PublicUser.RunPublic | kubernetes/langflow/init/python/init_public_user.py:44-230 | the run completes exactly when every required step succeeds; no superuser token means no calls at all; a fatal run after the superuser login has made exactly the account calls (the mint only if the user step and user login succeeded), leaves the env file unchanged, and has made no env write or upload; a completed run has written the key line and made exactly the user calls, the mint, the env write and the upload phase, in that order; the failure log is that of the upload phase when the run completes, and empty when it is fatal |
| ServiceUser.UploadServiceFlows | kubernetes/langflow/init/python/init_service_user.py:105-176 | the upload phase: directory reports, then top-level uploads; no project upload after a top-level upload; no env write; the uploads logged as failed are exactly those of the phase whose status is not 200 |
| ServiceUser.ServicePhaseTraced | kubernetes/langflow/init/python/init_service_user.py:105-176 | the upload phase's calls make exactly the uploads its failure log is taken from, and one project create per subdirectory whose project was not reused, in order |
| ServiceUser.IdWrites | kubernetes/langflow/init/python/init_service_user.py:207-210 | four env writes in the fixed key order, each with the rendered last-match id |
| ServiceUser.SetKeysTracked | kubernetes/langflow/init/python/init_service_user.py:207-210 | the four writes are the four single updates applied one after another |
| ServiceUser.IdsWritten | kubernetes/langflow/init/python/init_service_user.py:207-210 | after the four writes each key's line `KEY=<id or None>` is in the file |
| ServiceUser.WriteFlowIds | kubernetes/langflow/init/python/init_service_user.py:184-210 | extraction and the four writes give those lines and those calls |
| ServiceUser.RecordFlowIds | kubernetes/langflow/init/python/init_service_user.py:178-210 | a non-200 flow listing stops the run with no write; otherwise the ids are written, and a non-list body counts as no flows |
| ServiceUser.RunService | kubernetes/langflow/init/python/init_service_user.py:40-210 | the run completes exactly when it gets a superuser token, a truthy key and a 200 flow listing; a falsy key ends it after the mint alone; otherwise the secret key is the first env write, then come the directory phase and the top-level uploads, then the four id writes; at the end every id line is in the file; no project upload follows a top-level upload; once the key is written, the failure log is that of the upload phase (status not 200), and it is empty before |

## Left out

- `init_benchmark_flow.py` is not part of this model. It is a straight-line
  client: one login, one key mint and one hard-coded flow upload.
- HTTP transport and JSON decoding are represented by response values.
  - Only the superuser login loop catches an exception, and only a connection
    error. Any exception raised by any other request ends the run: a
    connection error, a timeout, or a body that is not JSON. The model does not
    represent these. In particular, a dropped connection during one upload
    aborts every remaining upload, while the model's upload loops always run to
    the end.
  - A read timeout or a non-JSON body during the login loop is not modelled
    either.
  - A JSON `null` access token or key is folded into the empty string; both are
    falsy.
  - A user or project listing with an unexpected shape is not modelled.
- Directory enumeration, `os.path.isdir` and flow file contents are inputs: a
  run receives the file names and the `(subdirectory, files)` pairs.
  - The order `glob` returns them in is taken as given.
  - Directory and file names are taken to be unique within a run; the server
    replies are keyed by them.
- The env file is a sequence of lines, and a missing file is the empty
  sequence.
  - Appending after a last line with no trailing newline joins the two lines on
    disk. The model keeps them as separate lines.
  - A value that contains a newline becomes two lines on disk. `EnvLine` keeps
    it as one line.
  - Reading and writing the file, and concurrent writers, are not modelled.
- Logging, `time.sleep` and `sys.exit`:
  - printing is not modelled;
  - sleeps are counted;
  - an exit is the `Fatal` outcome.
- Environment variables are not modelled: their defaults, the
  missing-credentials check and the superuser's name and password. The
  secondary account's username is a parameter.
- The activation call's response and the project create's `description` field
  are not modelled. Neither influences the run.
- EnvFile.SetKeyIdempotent: holds only for keys that do not start with
  whitespace; `EnvFile.LeadingSpaceKeyAppendsTwice` shows the other case. Every
  key the scripts write qualifies.

=== FILE: api.dfy ===
/** The HTTP surface of the application server, as data. Responses are given
    to the model; requests that change server or file state are recorded as
    effects. */
module Api {
  import opened Common

  /** One element of a listing (users, projects, flows): its name field
      (`username` for users) and its `id`, each possibly missing. */
  datatype Record = Record(name: Option<string>, id: Option<string>)

  /** A login response: its status and the `access_token` field, `None` when
      the body has no such key. A JSON null token is folded into `Some("")`:
      both are falsy. */
  datatype Reply = Reply(status: int, accessToken: Option<string>)

  /** One attempt of the retried login: a connection error, or a response. */
  datatype Attempt = ConnectionFailed | Answered(reply: Reply)

  /** The response to a create call: its status and the `id` field of its body. */
  datatype CreateReply = CreateReply(status: int, id: Option<string>)

  /** The response to `GET /api/v1/projects/`. */
  datatype Listing = Listing(status: int, body: seq<Record>)

  /** The response to `GET /api/v1/flows/`: `body` is `None` when the JSON
      body is not a list. */
  datatype FlowsReply = FlowsReply(status: int, body: Option<seq<Record>>)

  /** A flow file: the subdirectory it sits in (`None` at the top level) and
      its file name. */
  datatype Path = Path(dir: Option<string>, file: string)

  /** Where an upload goes: the plain upload endpoint, or the one carrying a
      `folder_id` query parameter (rendered "None" when the id is missing). */
  datatype Target = TopLevel | InProject(folder: Option<string>)

  /** One upload request and the status it got back. */
  datatype Upload = Upload(path: Path, target: Target, status: int)

  /** The calls of a run that change server or file state, in the order they
      are made. */
  datatype Effect =
    | CreateUser(username: string)
    | ActivateUser(userId: Option<string>)
    | MintApiKey(keyName: string)
    | WriteEnv(key: string, value: string)
    | CreateProject(project: string, status: int)
    | Flow(upload: Upload)

  /** The check a login response must pass: status 200 and an
      `access_token` key in the body. */
  predicate Granted(r: Reply) {
    r.status == 200 && r.accessToken.Some?
  }

  /** An attempt that ends the retry loop. */
  predicate Accepted(a: Attempt) {
    a.Answered? && Granted(a.reply)
  }
}

=== FILE: common.dfy ===
/** Values shared by both bootstrap scripts: optional JSON values, their Python
    truthiness and rendering, and the process outcome. */
module Common {

  /** A JSON field that may be missing (or `null`). */
  datatype Option<T> = None | Some(value: T)

  /** Python truthiness of an optional string: `None` and `""` are false. */
  predicate Truthy(v: Option<string>) {
    v.Some? && v.value != ""
  }

  /** How an f-string renders an optional string: `None` is the text "None". */
  function Render(v: Option<string>): string {
    if v.None? then "None" else v.value
  }

  /** How a run ends: normally, or through `sys.exit(1)`. */
  datatype Exit = Completed | Fatal
}

=== FILE: env_file.dfy ===
/** The env-file sink (`add_value_to_env_file` in both scripts): the file is a
    sequence of lines, and a missing file is the empty sequence. */
module EnvFile {

  /** The characters Python's `str.strip()` removes (`str.isspace()`). */
  predicate IsSpace(c: char)
    ensures c == ' ' || c == '\t' || c == '\n' || c == '\r' ==> IsSpace(c)
    ensures IsSpace(c) ==> c != '='
  {
    c == ' ' || '\t' <= c <= '\r' || '\U{1c}' <= c <= '\U{1f}' || c == '\U{85}' || c == '\U{a0}'
    || c == '\U{1680}' || '\U{2000}' <= c <= '\U{200a}' || c == '\U{2028}' || c == '\U{2029}'
    || c == '\U{202f}' || c == '\U{205f}' || c == '\U{3000}'
  }

  /** `s.lstrip()`: drops the leading whitespace and nothing else. */
  function LStrip(s: string): (r: string)
    ensures |r| <= |s|
    ensures r == [] || !IsSpace(r[0])
  {
    if s != [] && IsSpace(s[0]) then LStrip(s[1..]) else s
  }

  /** `s.rstrip()`: drops the trailing whitespace and nothing else. */
  function RStrip(s: string): (r: string)
    ensures |r| <= |s|
    ensures r == [] || !IsSpace(r[|r| - 1])
  {
    if s != [] && IsSpace(s[|s| - 1]) then RStrip(s[..|s| - 1]) else s
  }

  /** `lstrip()` removes exactly the leading whitespace: what it drops is all
      whitespace, and what it keeps is the rest of the line. */
  lemma {:induction false} LStripDropsLeadingSpace(s: string)
    ensures var r := LStrip(s);
      r == s[|s| - |r|..] && forall j :: 0 <= j < |s| - |r| ==> IsSpace(s[j])
    decreases |s|
  {
    if s != [] && IsSpace(s[0]) {
      LStripDropsLeadingSpace(s[1..]);
      var r := LStrip(s);
      assert s[1..][|s| - 1 - |r|..] == s[|s| - |r|..];
      forall j | 0 <= j < |s| - |r|
        ensures IsSpace(s[j])
      {
        if j > 0 {
          assert s[j] == s[1..][j - 1];
        }
      }
    }
  }

  /** `rstrip()` removes exactly the trailing whitespace, a line made only of
      whitespace included: what it drops is all whitespace, and what it keeps
      is the start of the line. */
  lemma {:induction false} RStripDropsTrailingSpace(s: string)
    ensures var r := RStrip(s);
      r == s[..|r|] && forall j :: |r| <= j < |s| ==> IsSpace(s[j])
    decreases |s|
  {
    if s != [] && IsSpace(s[|s| - 1]) {
      var t := s[..|s| - 1];
      RStripDropsTrailingSpace(t);
      var r := RStrip(s);
      assert t[..|r|] == s[..|r|];
      forall j | |r| <= j < |s|
        ensures IsSpace(s[j])
      {
        if j < |s| - 1 {
          assert s[j] == t[j];
        }
      }
    }
  }

  /** `lstrip()` skips any whitespace put in front of a line. */
  lemma {:induction false} LStripSkipsIndent(ws: string, t: string)
    requires forall j :: 0 <= j < |ws| ==> IsSpace(ws[j])
    ensures LStrip(ws + t) == LStrip(t)
    decreases |ws|
  {
    if ws != [] {
      assert (ws + t)[0] == ws[0];
      assert (ws + t)[1..] == ws[1..] + t;
      LStripSkipsIndent(ws[1..], t);
    } else {
      assert ws + t == t;
    }
  }

  /** `lstrip()` leaves a line that starts with a non-space character as it is. */
  lemma LStripKeeps(s: string)
    requires s != [] && !IsSpace(s[0])
    ensures LStrip(s) == s
  {
  }

  /** `rstrip()` keeps a prefix of the line that reaches past every
      non-space character. */
  lemma {:induction false} RStripKeepsPrefix(s: string, j: nat)
    requires j < |s| && !IsSpace(s[j])
    ensures j < |RStrip(s)| <= |s| && RStrip(s) == s[..|RStrip(s)|]
    decreases |s|
  {
    if IsSpace(s[|s| - 1]) {
      RStripKeepsPrefix(s[..|s| - 1], j);
    }
  }

  /** `s.strip()`: both ends trimmed of whitespace. */
  function Strip(s: string): (r: string)
    ensures |r| <= |s|
    ensures r == [] || (!IsSpace(r[0]) && !IsSpace(r[|r| - 1]))
  {
    var l := LStrip(s);
    if l == [] then l
    else
      RStripKeepsPrefix(l, 0);
      RStrip(l)
  }

  predicate StartsWith(s: string, prefix: string) {
    |prefix| <= |s| && s[..|prefix|] == prefix
  }

  /** The test a line must pass to be replaced: `line.strip().startswith(f"{key}=")`. */
  predicate Matches(line: string, key: string)
  {
    StartsWith(Strip(line), key + "=")
  }

  /** The line written for a key: `f"{key}={value}\n"`. */
  function EnvLine(key: string, value: string): string {
    key + "=" + value + "\n"
  }

  /** A key as the scripts use them: non-empty, not starting with whitespace,
      without `=`. */
  predicate PlainKey(key: string) {
    |key| > 0 && !IsSpace(key[0]) && forall k :: 0 <= k < |key| ==> key[k] != '='
  }

  /** Index of the first matching line, or `|lines|` when none matches. */
  function FirstMatch(lines: seq<string>, key: string): (i: nat)
    ensures i <= |lines|
    ensures i < |lines| ==> Matches(lines[i], key)
    ensures forall j :: 0 <= j < i ==> !Matches(lines[j], key)
  {
    if lines == [] then 0
    else if Matches(lines[0], key) then 0
    else 1 + FirstMatch(lines[1..], key)
  }

  /** The lines after one update: the first matching line is replaced, or the
      new line is appended when no line matches. */
  function SetKey(lines: seq<string>, key: string, value: string): seq<string> {
    var i := FirstMatch(lines, key);
    if i < |lines| then lines[i := EnvLine(key, value)] else lines + [EnvLine(key, value)]
  }

  /** Key present: only the first matching line becomes `key=value`; the
      length and every other line, later duplicates of the key included,
      stay as they were. */
  lemma SetKeyReplacesFirstMatch(lines: seq<string>, key: string, value: string, i: nat)
    requires i < |lines| && Matches(lines[i], key)
    requires forall j :: 0 <= j < i ==> !Matches(lines[j], key)
    ensures var r := SetKey(lines, key, value);
      |r| == |lines| && r[i] == EnvLine(key, value) &&
      forall j :: 0 <= j < |lines| && j != i ==> r[j] == lines[j]
  {
    FirstMatchAt(lines, key, i);
  }

  /** Key absent (a missing file included): the new line is appended after
      the old lines. */
  lemma SetKeyAppends(lines: seq<string>, key: string, value: string)
    requires forall j :: 0 <= j < |lines| ==> !Matches(lines[j], key)
    ensures SetKey(lines, key, value) == lines + [EnvLine(key, value)]
  {
    FirstMatchAt(lines, key, |lines|);
  }

  /** After an update the file holds the line `key=value`. */
  lemma SetKeyWritesLine(lines: seq<string>, key: string, value: string)
    ensures EnvLine(key, value) in SetKey(lines, key, value)
  {
    var i := FirstMatch(lines, key);
    if i < |lines| {
      assert SetKey(lines, key, value)[i] == EnvLine(key, value);
    } else {
      assert SetKey(lines, key, value)[|lines|] == EnvLine(key, value);
    }
  }

  /** The first matching line is the one the match test singles out. */
  lemma FirstMatchAt(lines: seq<string>, key: string, i: nat)
    requires i <= |lines|
    requires i < |lines| ==> Matches(lines[i], key)
    requires forall j :: 0 <= j < i ==> !Matches(lines[j], key)
    ensures FirstMatch(lines, key) == i
  {
  }

  /** `add_value_to_env_file` on the lines read from the file; the result is
      what is written back. */
  method AddValue(lines0: seq<string>, key: string, value: string) returns (lines: seq<string>)
    ensures lines == SetKey(lines0, key, value)
  {
    lines := lines0;
    var newLine := EnvLine(key, value);
    var found := false;
    var i := 0;
    while i < |lines|
      invariant 0 <= i <= |lines| && lines == lines0 && !found
      invariant forall j :: 0 <= j < i ==> !Matches(lines0[j], key)
    {
      if Matches(lines[i], key) {
        lines := lines[i := newLine];
        found := true;
        break;
      }
      i := i + 1;
    }
    if !found {
      lines := lines + [newLine];
    }
  }

  /** The written line passes the match test for its own key, unless the key
      starts with whitespace (which `strip()` would remove). */
  lemma EnvLineMatches(key: string, value: string)
    requires key == [] || !IsSpace(key[0])
    ensures Matches(EnvLine(key, value), key)
  {
    var s := EnvLine(key, value);
    assert s[|key|] == '=';
    LStripKeeps(s);
    RStripKeepsPrefix(s, |key|);
    var r := RStrip(s);
    assert r[..|key| + 1] == s[..|key| + 1] == key + "=";
  }

  /** An indented `key=...` line, as an editor may leave it, passes the match
      test, so an update replaces it rather than appending. */
  lemma IndentedLineMatches(ws: string, key: string, value: string)
    requires forall j :: 0 <= j < |ws| ==> IsSpace(ws[j])
    requires key == [] || !IsSpace(key[0])
    ensures Matches(ws + EnvLine(key, value), key)
  {
    var line := EnvLine(key, value);
    LStripSkipsIndent(ws, line);
    assert Strip(ws + line) == Strip(line);
    EnvLineMatches(key, value);
  }

  /** A line made only of whitespace (an empty line included) strips to
      nothing and never passes the match test. */
  lemma BlankLineNeverMatches(line: string, key: string)
    requires forall j :: 0 <= j < |line| ==> IsSpace(line[j])
    ensures !Matches(line, key)
  {
    LStripDropsLeadingSpace(line);
    assert LStrip(line) == [];
  }

  /** A line written for one plain key passes the match test of another plain
      key exactly when the keys are equal. */
  lemma EnvLineMatchesOnlyItsKey(key: string, value: string, other: string)
    requires PlainKey(key) && PlainKey(other)
    ensures Matches(EnvLine(key, value), other) <==> other == key
  {
    var s := EnvLine(key, value);
    EnvLineMatches(key, value);
    LStripKeeps(s);
    RStripKeepsPrefix(s, |key|);
    var r := Strip(s);
    assert r == s[..|r|] && |key| < |r|;
    if Matches(s, other) {
      assert r[..|other| + 1] == other + "=";
      assert forall k :: 0 <= k < |other| ==> r[k] == other[k] != '=';
      assert r[|other|] == '=';
      assert forall k :: 0 <= k < |key| ==> r[k] == key[k] != '=';
      assert r[|key|] == '=';
      assert |other| == |key|;
      assert other == r[..|key|] == s[..|key|] == key;
    }
  }

  /** Writing the same key and value twice gives the lines of writing it once. */
  lemma SetKeyIdempotent(lines: seq<string>, key: string, value: string)
    requires key == [] || !IsSpace(key[0])
    ensures SetKey(SetKey(lines, key, value), key, value) == SetKey(lines, key, value)
  {
    var line := EnvLine(key, value);
    var once := SetKey(lines, key, value);
    var i := FirstMatch(lines, key);
    EnvLineMatches(key, value);
    if i < |lines| {
      assert once == lines[i := line];
      assert once[i] == line;
      assert forall j :: 0 <= j < i ==> once[j] == lines[j];
      FirstMatchAt(once, key, i);
    } else {
      assert once == lines + [line];
      assert once[|lines|] == line;
      assert forall j :: 0 <= j < |lines| ==> once[j] == lines[j];
      FirstMatchAt(once, key, |lines|);
    }
  }

  /** With a key that starts with whitespace the written line never matches,
      so a second identical write appends a duplicate line. */
  lemma LeadingSpaceKeyAppendsTwice()
    ensures SetKey(SetKey([], " A", "1"), " A", "1") == [" A=1\n", " A=1\n"]
  {
    var line := EnvLine(" A", "1");
    assert line == " A=1\n";
    assert LStrip(line) == "A=1\n" by {
      assert LStrip(line) == LStrip(line[1..]);
      assert line[1..] == "A=1\n";
    }
    assert Strip(line) == "A=1" by {
      assert RStrip("A=1\n") == RStrip("A=1");
      assert "A=1\n"[..3] == "A=1";
    }
    assert !Matches(line, " A");
  }

  /** A line written for one key survives a later write of a different key. */
  lemma SetKeyKeepsOtherLine(lines: seq<string>, key: string, value: string, other: string, v: string)
    requires PlainKey(key) && PlainKey(other) && key != other
    requires EnvLine(key, value) in lines
    ensures EnvLine(key, value) in SetKey(lines, other, v)
  {
    var p :| 0 <= p < |lines| && lines[p] == EnvLine(key, value);
    EnvLineMatchesOnlyItsKey(key, value, other);
    var i := FirstMatch(lines, other);
    var r := SetKey(lines, other, v);
    if i < |lines| {
      assert p != i;
      assert r[p] == lines[p];
    } else {
      assert r[p] == lines[p];
    }
  }

  /** Several writes in a row, as `add_value_to_env_file` calls one after another. */
  function SetKeys(lines: seq<string>, keys: seq<string>, values: seq<string>): seq<string>
    requires |keys| == |values|
    decreases |keys|
  {
    if keys == [] then lines else SetKeys(SetKey(lines, keys[0], values[0]), keys[1..], values[1..])
  }

  /** A line survives a run of writes of keys different from its own. */
  lemma {:induction false} SetKeysKeepsLine(lines: seq<string>, keys: seq<string>, values: seq<string>, key: string, value: string)
    requires |keys| == |values| && PlainKey(key)
    requires forall t :: 0 <= t < |keys| ==> PlainKey(keys[t]) && keys[t] != key
    requires EnvLine(key, value) in lines
    ensures EnvLine(key, value) in SetKeys(lines, keys, values)
    decreases |keys|
  {
    if keys != [] {
      SetKeyKeepsOtherLine(lines, key, value, keys[0], values[0]);
      SetKeysKeepsLine(SetKey(lines, keys[0], values[0]), keys[1..], values[1..], key, value);
    }
  }

  /** After writes of distinct plain keys, every key's own line is in the file. */
  lemma {:induction false} SetKeysWritesAll(lines: seq<string>, keys: seq<string>, values: seq<string>)
    requires |keys| == |values|
    requires forall t :: 0 <= t < |keys| ==> PlainKey(keys[t])
    requires forall s, t :: 0 <= s < t < |keys| ==> keys[s] != keys[t]
    ensures forall t :: 0 <= t < |keys| ==> EnvLine(keys[t], values[t]) in SetKeys(lines, keys, values)
    decreases |keys|
  {
    if keys != [] {
      var next := SetKey(lines, keys[0], values[0]);
      SetKeyWritesLine(lines, keys[0], values[0]);
      SetKeysKeepsLine(next, keys[1..], values[1..], keys[0], values[0]);
      SetKeysWritesAll(next, keys[1..], values[1..]);
      forall t | 1 <= t < |keys|
        ensures EnvLine(keys[t], values[t]) in SetKeys(lines, keys, values)
      {
        assert keys[1..][t - 1] == keys[t] && values[1..][t - 1] == values[t];
      }
    }
  }
}

=== FILE: flow_ids.dfy ===
/** The service script's last step: the ids of four flows, picked from the
    flow listing by exact display name, and the env keys they are written to. */
module FlowIds {
  import opened Common
  import opened Api
  import opened EnvFile

  const DemoChatbot := "Demo Chatbot"
  const EmailCategorization := "Email Categorization"
  const EmailAutoResponse := "Email Auto Response Generation"
  const UiEmbedding := "UI Embedding"

  const ChatbotKey := "NEXT_PUBLIC_CHATBOT_FLOW_ID"
  const CategorizeKey := "NEXT_PUBLIC_EMAIL_CATEGORIZE_FLOW_ID"
  const ReplyKey := "NEXT_PUBLIC_EMAIL_REPLY_FLOW_ID"
  const VectorDbKey := "NEXT_PUBLIC_VECTOR_DB_FLOW_ID"

  /** The tracked display names and, at the same index, the env key each id is
      written to, in the order of the writes. */
  const TrackedNames: seq<string> := [DemoChatbot, EmailCategorization, EmailAutoResponse, UiEmbedding]
  const TrackedKeys: seq<string> := [ChatbotKey, CategorizeKey, ReplyKey, VectorDbKey]

  /** The flows of a listing: its body when that is a JSON list, else none. */
  function ListedFlows(r: FlowsReply): (flows: seq<Record>)
    ensures r.body.Some? ==> flows == r.body.value
    ensures r.body.None? ==> flows == []
  {
    if r.body.Some? then r.body.value else []
  }

  /** The `id` of the LAST flow named exactly `name`, `None` if there is none. */
  function LastIdByName(flows: seq<Record>, name: string): (id: Option<string>)
    ensures id.Some? ==> exists j :: 0 <= j < |flows| && flows[j].name == Some(name) && flows[j].id == id
    decreases |flows|
  {
    if flows == [] then None
    else if flows[|flows| - 1].name == Some(name) then flows[|flows| - 1].id
    else LastIdByName(flows[..|flows| - 1], name)
  }

  /** A name that no flow carries gets `None`. */
  lemma {:induction false} LastIdAbsent(flows: seq<Record>, name: string)
    requires forall j :: 0 <= j < |flows| ==> flows[j].name != Some(name)
    ensures LastIdByName(flows, name) == None
    decreases |flows|
  {
    if flows != [] {
      LastIdAbsent(flows[..|flows| - 1], name);
    }
  }

  /** A name gets the `id` of the last flow that carries it, even when an
      earlier flow with that name has a different id. */
  lemma {:induction false} LastIdIsLastMatch(flows: seq<Record>, name: string, j: nat)
    requires j < |flows| && flows[j].name == Some(name)
    requires forall k :: j < k < |flows| ==> flows[k].name != Some(name)
    ensures LastIdByName(flows, name) == flows[j].id
    decreases |flows|
  {
    if j < |flows| - 1 {
      var init := flows[..|flows| - 1];
      assert init[j] == flows[j];
      assert forall k :: j < k < |init| ==> init[k] == flows[k];
      LastIdIsLastMatch(init, name, j);
    }
  }

  /** The four ids in the order of `TrackedNames`. */
  function TrackedIds(flows: seq<Record>): seq<Option<string>> {
    [LastIdByName(flows, DemoChatbot), LastIdByName(flows, EmailCategorization),
     LastIdByName(flows, EmailAutoResponse), LastIdByName(flows, UiEmbedding)]
  }

  /** The values written for the ids: an absent id is the text "None". */
  function Rendered(ids: seq<Option<string>>): (vs: seq<string>)
    ensures |vs| == |ids| && forall t :: 0 <= t < |ids| ==> vs[t] == Render(ids[t])
  {
    if ids == [] then [] else [Render(ids[0])] + Rendered(ids[1..])
  }

  /** The `for flow in flows` loop that overwrites four variables, each time a
      flow carries one of the tracked names. */
  method ExtractFlowIds(flows: seq<Record>) returns (chatbot: Option<string>, categorize: Option<string>, reply: Option<string>, embedding: Option<string>)
    ensures [chatbot, categorize, reply, embedding] == TrackedIds(flows)
  {
    chatbot, categorize, reply, embedding := None, None, None, None;
    for i := 0 to |flows|
      invariant chatbot == LastIdByName(flows[..i], DemoChatbot)
      invariant categorize == LastIdByName(flows[..i], EmailCategorization)
      invariant reply == LastIdByName(flows[..i], EmailAutoResponse)
      invariant embedding == LastIdByName(flows[..i], UiEmbedding)
    {
      assert flows[..i + 1][..i] == flows[..i] && flows[..i + 1][i] == flows[i];
      var flow := flows[i];
      if flow.name == Some(DemoChatbot) {
        chatbot := flow.id;
        continue;
      }
      if flow.name == Some(EmailCategorization) {
        categorize := flow.id;
        continue;
      }
      if flow.name == Some(EmailAutoResponse) {
        reply := flow.id;
        continue;
      }
      if flow.name == Some(UiEmbedding) {
        embedding := flow.id;
        continue;
      }
    }
    assert flows[..|flows|] == flows;
  }

  /** A flow whose name is none of the tracked ones changes no tracked id,
      wherever it sits in the listing. */
  lemma UntrackedFlowIgnored(before: seq<Record>, f: Record, after: seq<Record>)
    requires forall t :: 0 <= t < |TrackedNames| ==> f.name != Some(TrackedNames[t])
    ensures TrackedIds(before + [f] + after) == TrackedIds(before + after)
  {
    assert TrackedNames[0] == DemoChatbot && TrackedNames[1] == EmailCategorization;
    assert TrackedNames[2] == EmailAutoResponse && TrackedNames[3] == UiEmbedding;
    SkipUntracked(before, f, after, DemoChatbot);
    SkipUntracked(before, f, after, EmailCategorization);
    SkipUntracked(before, f, after, EmailAutoResponse);
    SkipUntracked(before, f, after, UiEmbedding);
  }

  lemma {:induction false} SkipUntracked(before: seq<Record>, f: Record, after: seq<Record>, name: string)
    requires f.name != Some(name)
    ensures LastIdByName(before + [f] + after, name) == LastIdByName(before + after, name)
    decreases |after|
  {
    var with := before + [f] + after;
    var without := before + after;
    if after == [] {
      assert with[..|with| - 1] == without;
    } else {
      var last := after[|after| - 1];
      assert with[|with| - 1] == last && without[|without| - 1] == last;
      assert with[..|with| - 1] == before + [f] + after[..|after| - 1];
      assert without[..|without| - 1] == before + after[..|after| - 1];
      SkipUntracked(before, f, after[..|after| - 1], name);
    }
  }

  /** The four keys are plain and pairwise distinct, so every one of the four
      writes survives the writes after it. */
  lemma TrackedKeysPlain()
    ensures |TrackedKeys| == 4
    ensures forall t :: 0 <= t < |TrackedKeys| ==> PlainKey(TrackedKeys[t])
    ensures forall s, t :: 0 <= s < t < |TrackedKeys| ==> TrackedKeys[s] != TrackedKeys[t]
  {
    assert PlainKey(ChatbotKey);
    assert PlainKey(CategorizeKey);
    assert PlainKey(ReplyKey);
    assert PlainKey(VectorDbKey);
  }
}

=== FILE: login.dfy ===
/** The superuser login retried up to a fixed number of times (the same loop in
    both scripts). Attempt `k` (counting from 0) gets the outcome `attempts(k)`;
    `time.sleep` is represented by a count of sleeps. */
module Login {
  import opened Common
  import opened Api

  const MaxRetries: nat := 15
  const RetryDelaySeconds: nat := 2

  /** What the loop leaves behind: the `access_token` value it took (`None`
      when no attempt was accepted), how many attempts it made and how many
      times it slept. */
  datatype LoginResult = LoginResult(token: Option<string>, tries: nat, sleeps: nat)

  /** The loop from attempt `i` on, the attempts before `i` having failed. */
  function RetryFrom(attempts: nat -> Attempt, i: nat): (r: LoginResult)
    requires i <= MaxRetries
    ensures i <= r.sleeps <= r.tries <= MaxRetries
    decreases MaxRetries - i
  {
    if i == MaxRetries then LoginResult(None, MaxRetries, MaxRetries)
    else if Accepted(attempts(i)) then LoginResult(attempts(i).reply.accessToken, i + 1, i)
    else RetryFrom(attempts, i + 1)
  }

  /** From attempt `i` on, a token is obtained exactly when some remaining
      attempt is accepted; it is the token of the first accepted attempt,
      after one sleep per earlier attempt. Without a token every attempt was
      made and followed by a sleep. */
  lemma {:induction false} RetryFromSpec(attempts: nat -> Attempt, i: nat)
    requires i <= MaxRetries
    ensures var r := RetryFrom(attempts, i);
      (r.token.Some? <==> exists j :: i <= j < MaxRetries && Accepted(attempts(j))) &&
      (r.token.None? ==> r.tries == r.sleeps == MaxRetries) &&
      (r.token.Some? ==> r.sleeps == r.tries - 1 && Accepted(attempts(r.sleeps)) && r.token == attempts(r.sleeps).reply.accessToken) &&
      (forall j :: i <= j < r.sleeps ==> !Accepted(attempts(j)))
    decreases MaxRetries - i
  {
    if i < MaxRetries && !Accepted(attempts(i)) {
      RetryFromSpec(attempts, i + 1);
    }
  }

  /** The whole retry loop. */
  function RetryLogin(attempts: nat -> Attempt): (r: LoginResult)
    ensures 1 <= r.tries <= MaxRetries && r.sleeps <= r.tries
  {
    RetryFrom(attempts, 0)
  }

  /** The retry loop as the scripts run it: stop at the first accepted
      response, sleep after every other attempt. */
  method RetryLoginLoop(attempts: nat -> Attempt) returns (r: LoginResult)
    ensures r == RetryLogin(attempts)
  {
    var accessToken: Option<string> := None;
    var tries, sleeps := 0, 0;
    for attempt := 0 to MaxRetries
      invariant accessToken.None? && tries == sleeps == attempt
      invariant RetryFrom(attempts, attempt) == RetryLogin(attempts)
    {
      tries := tries + 1;
      var outcome := attempts(attempt);
      if outcome.Answered? && outcome.reply.status == 200 && outcome.reply.accessToken.Some? {
        accessToken := outcome.reply.accessToken;
        assert RetryFrom(attempts, attempt) == LoginResult(accessToken, tries, sleeps);
        return LoginResult(accessToken, tries, sleeps);
      }
      sleeps := sleeps + 1;
      assert RetryFrom(attempts, attempt) == RetryFrom(attempts, attempt + 1);
    }
    assert RetryFrom(attempts, MaxRetries) == LoginResult(None, MaxRetries, MaxRetries);
    r := LoginResult(accessToken, tries, sleeps);
  }

  /** An endpoint that fails `k` times and then answers with a token is tried
      exactly `k + 1` times, sleeps `k` times, and yields that token. */
  lemma StopsAtFirstAccepted(attempts: nat -> Attempt, k: nat)
    requires k < MaxRetries && Accepted(attempts(k))
    requires forall j :: 0 <= j < k ==> !Accepted(attempts(j))
    ensures RetryLogin(attempts) == LoginResult(attempts(k).reply.accessToken, k + 1, k)
  {
    var r := RetryLogin(attempts);
    RetryFromSpec(attempts, 0);
    assert r.token.Some?;
    assert Accepted(attempts(r.sleeps));
    assert r.sleeps == k;
  }

  /** An endpoint that never accepts is tried exactly `MaxRetries` times, with
      a sleep after each (30 seconds of waiting in all), and no token is
      obtained. */
  lemma ExhaustsRetries(attempts: nat -> Attempt)
    requires forall j :: 0 <= j < MaxRetries ==> !Accepted(attempts(j))
    ensures RetryLogin(attempts) == LoginResult(None, MaxRetries, MaxRetries)
    ensures RetryLogin(attempts).sleeps * RetryDelaySeconds == 30
  {
    RetryFromSpec(attempts, 0);
  }

  /** A 200 response whose `access_token` is empty still ends the loop, with
      no further attempt, and leaves a falsy token behind. */
  lemma EmptyTokenEndsLoop(attempts: nat -> Attempt, k: nat)
    requires k < MaxRetries && attempts(k) == Answered(Reply(200, Some("")))
    requires forall j :: 0 <= j < k ==> !Accepted(attempts(j))
    ensures RetryLogin(attempts).tries == k + 1
    ensures !Truthy(RetryLogin(attempts).token)
  {
    StopsAtFirstAccepted(attempts, k);
  }
}

=== FILE: public_user.dfy ===
/** init_public_user.py: superuser login with retries, the secondary account
    found or created and re-activated, its login and API key, the key written
    to the env file, then the best-effort upload of the public flows (top-level
    files first, then one project per subdirectory). */
module PublicUser {
  import opened Common
  import opened Api
  import opened EnvFile
  import opened Login
  import opened FlowUpload
  import opened Reconcile
  import opened Trace

  const PublicKeyName := "LANGFLOW_PUBLIC_SECRET_KEY"
  const PublicKeyLabel := "public_flows_key"

  /** The server's answers to the public script, in the order it asks. */
  datatype PublicServer = PublicServer(
    login: nat -> Attempt,       // superuser login attempt k
    users: seq<Record>,          // the "users" list of GET /api/v1/users/
    createUser: CreateReply,     // POST /api/v1/users/
    userLogin: Reply,            // login as the secondary account
    apiKey: Option<string>,      // the "api_key" field of POST /api/v1/api_key/
    projects: ProjectServer)

  /** Every step that can end the run succeeds. */
  predicate Ready(login: LoginResult, username: string, srv: PublicServer) {
    Truthy(login.token) && EnsureUser(srv.users, username, srv.createUser).UserReady?
    && Granted(srv.userLogin) && Truthy(srv.apiKey)
  }

  /** The upload phase: every top-level file with no folder, then the
      subdirectories reconciled against the listing (accepted on 201). */
  function UploadEffects(layout: Layout, srv: PublicServer): seq<Effect> {
    FlowEffects(Uploads(None, layout.topFiles, TopLevel, srv.projects.upload))
    + DirEffects(ReconcileAll(layout.dirs, Accept(srv.projects.initial, PublicSite.listOk), PublicSite, srv.projects), PublicSite)
  }

  /** Every upload of the upload phase, in the order it is made. */
  function PublicUploads(layout: Layout, srv: PublicServer): seq<Upload> {
    Uploads(None, layout.topFiles, TopLevel, srv.projects.upload)
    + ProjectUploads(ReconcileAll(layout.dirs, Accept(srv.projects.initial, PublicSite.listOk), PublicSite, srv.projects))
  }

  /** The upload phase's calls make exactly the uploads the failure log is
      taken from, and exactly one project create per subdirectory whose
      project was not reused, in order. */
  lemma PublicPhaseTraced(layout: Layout, srv: PublicServer)
    ensures Uploaded(UploadEffects(layout, srv)) == PublicUploads(layout, srv)
    ensures Created(UploadEffects(layout, srv)) ==
      ProjectCreates(ReconcileAll(layout.dirs, Accept(srv.projects.initial, PublicSite.listOk), PublicSite, srv.projects), PublicSite)
  {
    var top := FlowEffects(Uploads(None, layout.topFiles, TopLevel, srv.projects.upload));
    var dirs := DirEffects(ReconcileAll(layout.dirs, Accept(srv.projects.initial, PublicSite.listOk), PublicSite, srv.projects), PublicSite);
    UploadedConcat(top, dirs);
    CreatedConcat(top, dirs);
    FlowEffectsUploaded(Uploads(None, layout.topFiles, TopLevel, srv.projects.upload));
    DirEffectsTraced(ReconcileAll(layout.dirs, Accept(srv.projects.initial, PublicSite.listOk), PublicSite, srv.projects), PublicSite);
  }

  /** Steps 5 and 6 of the script: top-level uploads, then one project per
      subdirectory with its uploads. No top-level upload follows an upload into
      a project, and nothing is written to the env file. An upload is logged
      as failed exactly when its status is not 201. */
  method UploadPublicFlows(layout: Layout, srv: PublicServer) returns (effects: seq<Effect>, failed: seq<Upload>)
    ensures effects == UploadEffects(layout, srv)
    ensures TopLevelUploadsFirst(effects)
    ensures forall e :: e in effects ==> !e.WriteEnv?
    ensures failed == Failures(PublicUploads(layout, srv), PublicSite.uploadOk)
    ensures forall u :: u in failed <==> u in PublicUploads(layout, srv) && u.status != 201
  {
    var top, topFailed := UploadAll(None, layout.topFiles, TopLevel, srv.projects.upload, PublicSite.uploadOk);
    var reports, dirFailed := ReconcileProjects(layout.dirs, Accept(srv.projects.initial, PublicSite.listOk), PublicSite, srv.projects);
    FailuresConcat(top, ProjectUploads(reports), PublicSite.uploadOk);
    failed := topFailed + dirFailed;
    effects := FlowEffects(top) + DirEffects(reports, PublicSite);
    TopLevelEffects(layout.topFiles, srv.projects.upload);
    DirEffectsInProjects(layout.dirs, Accept(srv.projects.initial, PublicSite.listOk), PublicSite, srv.projects);
    TopLevelThenProjects(FlowEffects(top), DirEffects(reports, PublicSite));
  }

  /** The calls of steps 2 to 4: the account calls, then the key mint only
      when the account step and the login as that account both succeed (the
      script exits before the mint otherwise). */
  function AccountEffects(username: string, srv: PublicServer): (es: seq<Effect>)
    ensures EnsureUser(srv.users, username, srv.createUser).effects <= es
    ensures MintApiKey(PublicKeyLabel) in es <==>
      EnsureUser(srv.users, username, srv.createUser).UserReady? && Granted(srv.userLogin)
    ensures forall e :: e in es ==> !e.WriteEnv? && !e.Flow?
  {
    var user := EnsureUser(srv.users, username, srv.createUser);
    user.effects + (if user.UserReady? && Granted(srv.userLogin) then [MintApiKey(PublicKeyLabel)] else [])
  }

  /** Steps 2 to 4 of the script: the account found or created and
      re-activated, the login as that account, and its API key minted. The
      key comes back exactly when none of these steps is fatal; only account
      and key calls are made, and a refused create or login makes no mint. */
  method SetUpAccount(username: string, srv: PublicServer) returns (effects: seq<Effect>, apiKey: Option<string>)
    ensures apiKey.Some? <==>
      EnsureUser(srv.users, username, srv.createUser).UserReady? && Granted(srv.userLogin) && Truthy(srv.apiKey)
    ensures apiKey.Some? ==> apiKey == srv.apiKey
    ensures effects == AccountEffects(username, srv)
    ensures MintApiKey(PublicKeyLabel) in effects <==>
      EnsureUser(srv.users, username, srv.createUser).UserReady? && Granted(srv.userLogin)
    ensures EnsureUser(srv.users, username, srv.createUser).effects <= effects
    ensures forall e :: e in effects ==> !e.WriteEnv? && !e.Flow?
  {
    var user := EnsureUser(srv.users, username, srv.createUser);
    effects := user.effects;
    assert forall e :: e in effects ==> e.CreateUser? || e.ActivateUser?;
    apiKey := None;
    if user.UserReady? && Granted(srv.userLogin) {
      effects := effects + [MintApiKey(PublicKeyLabel)];
      if Truthy(srv.apiKey) {
        apiKey := srv.apiKey;
      }
    }
  }

  /** Steps 4 to 6 once the key is in hand: the key written to the env file,
      then the upload phase; the run completes whatever the uploads return. */
  method PublishKey(env0: seq<string>, login: LoginResult, account: seq<Effect>, apiKey: string, layout: Layout, srv: PublicServer)
    returns (run: Run)
    requires forall e :: e in account ==> !e.Flow?
    ensures run.exit == Completed && run.login == login
    ensures run.env == SetKey(env0, PublicKeyName, apiKey) && EnvLine(PublicKeyName, apiKey) in run.env
    ensures run.effects == account + [WriteEnv(PublicKeyName, apiKey)] + UploadEffects(layout, srv)
    ensures account <= run.effects
    ensures TopLevelUploadsFirst(run.effects)
    ensures run.failed == Failures(PublicUploads(layout, srv), PublicSite.uploadOk)
  {
    var env := AddValue(env0, PublicKeyName, apiKey);
    SetKeyWritesLine(env0, PublicKeyName, apiKey);
    var written := account + [WriteEnv(PublicKeyName, apiKey)];
    var uploads, failed := UploadPublicFlows(layout, srv);
    AppendKeepsOrder(written, uploads);
    run := Run(Completed, login, written + uploads, env, failed);
  }

  /** Steps 2 to 6 after a successful superuser login: the account and its
      key, then the key written and the flows uploaded; a refused account
      step ends the run with the env file untouched and no upload made. */
  method AfterLogin(env0: seq<string>, login: LoginResult, username: string, layout: Layout, srv: PublicServer) returns (run: Run)
    requires Truthy(login.token)
    ensures run.login == login
    ensures run.exit == Completed <==> Ready(login, username, srv)
    ensures EnsureUser(srv.users, username, srv.createUser).effects <= run.effects
    ensures run.exit == Fatal ==> run.effects == AccountEffects(username, srv) && run.env == env0 && run.failed == []
    ensures run.exit == Fatal ==> forall e :: e in run.effects ==> !e.WriteEnv? && !e.Flow?
    ensures run.exit == Completed ==> srv.apiKey.Some?
    ensures run.exit == Completed && srv.apiKey.Some? ==>
      run.env == SetKey(env0, PublicKeyName, srv.apiKey.value) &&
      EnvLine(PublicKeyName, srv.apiKey.value) in run.env
    ensures run.exit == Completed && srv.apiKey.Some? ==>
      run.effects == AccountEffects(username, srv) + [WriteEnv(PublicKeyName, srv.apiKey.value)] + UploadEffects(layout, srv)
    ensures run.exit == Completed ==>
      AccountEffects(username, srv) == EnsureUser(srv.users, username, srv.createUser).effects + [MintApiKey(PublicKeyLabel)]
    ensures TopLevelUploadsFirst(run.effects)
    ensures run.exit == Completed ==> run.failed == Failures(PublicUploads(layout, srv), PublicSite.uploadOk)
  {
    var account, key := SetUpAccount(username, srv);
    if key.None? {
      AppendKeepsOrder(account, []);
      return Run(Fatal, login, account, env0, []);
    }
    run := PublishKey(env0, login, account, key.value, layout, srv);
  }

  /** One run of the script against the env-file lines `env0` (empty when the
      file is missing), for secondary account `username`. */
  method RunPublic(env0: seq<string>, username: string, layout: Layout, srv: PublicServer) returns (run: Run)
    ensures run.login == RetryLogin(srv.login)
    ensures run.exit == Completed <==> Ready(run.login, username, srv)
    ensures !Truthy(run.login.token) ==> run.effects == [] && run.env == env0
    ensures Truthy(run.login.token) ==> EnsureUser(srv.users, username, srv.createUser).effects <= run.effects
    ensures Truthy(run.login.token) && run.exit == Fatal ==> run.effects == AccountEffects(username, srv)
    ensures run.exit == Fatal ==> run.env == env0
    ensures run.exit == Fatal ==> forall e :: e in run.effects ==> !e.WriteEnv? && !e.Flow?
    ensures run.exit == Completed ==> srv.apiKey.Some?
    ensures run.exit == Completed && srv.apiKey.Some? ==>
      run.env == SetKey(env0, PublicKeyName, srv.apiKey.value) &&
      EnvLine(PublicKeyName, srv.apiKey.value) in run.env
    ensures run.exit == Completed && srv.apiKey.Some? ==>
      run.effects == AccountEffects(username, srv) + [WriteEnv(PublicKeyName, srv.apiKey.value)] + UploadEffects(layout, srv)
    ensures run.exit == Completed ==>
      AccountEffects(username, srv) == EnsureUser(srv.users, username, srv.createUser).effects + [MintApiKey(PublicKeyLabel)]
    ensures TopLevelUploadsFirst(run.effects)
    ensures run.exit == Completed ==> run.failed == Failures(PublicUploads(layout, srv), PublicSite.uploadOk)
    ensures run.exit == Fatal ==> run.failed == []
  {
    var login := RetryLoginLoop(srv.login);
    if !Truthy(login.token) {
      return Run(Fatal, login, [], env0, []);
    }
    run := AfterLogin(env0, login, username, layout, srv);
  }
}

=== FILE: reconcile.dfy ===
/** Find-by-name-or-create, as the scripts do it for the secondary user account
    (public script) and for one project per flow subdirectory (both scripts). */
module Reconcile {
  import opened Common
  import opened Api
  import opened FlowUpload

  /** The `id` of the FIRST record whose name is `name` (`None` if there is
      none): `next((r for r in rs if r.get(...) == name), None)` followed by
      `.get("id")`, and the explicit `for`/`break` search of the service
      script. Later records with the same name are never looked at. */
  function FirstIdByName(rs: seq<Record>, name: string): (id: Option<string>)
    ensures (forall j :: 0 <= j < |rs| ==> rs[j].name != Some(name)) ==> id == None
    ensures forall j :: 0 <= j < |rs| && rs[j].name == Some(name) && (forall k :: 0 <= k < j ==> rs[k].name != Some(name)) ==> id == rs[j].id
  {
    if rs == [] then None
    else if rs[0].name == Some(name) then rs[0].id
    else FirstIdByName(rs[1..], name)
  }

  /** The service script's project search: `for p in projects: if ...: project_id = p.get("id"); break`. */
  method FindProjectId(projects: seq<Record>, name: string) returns (projectId: Option<string>)
    ensures projectId == FirstIdByName(projects, name)
  {
    projectId := None;
    for i := 0 to |projects|
      invariant projectId.None?
      invariant forall j :: 0 <= j < i ==> projects[j].name != Some(name)
    {
      if projects[i].name == Some(name) {
        projectId := projects[i].id;
        break;
      }
    }
  }

  // ---------------------------------------------------------------- the user account

  /** The status the public script accepts for `POST /api/v1/users/`. */
  const UserCreatedStatus := 201

  /** The user step ends the run (a refused create) or leaves a user id behind. */
  datatype UserPhase = UserFailed(effects: seq<Effect>) | UserReady(effects: seq<Effect>, userId: Option<string>)

  /** Find the account by username in the listing, create it when the first
      listed match has no truthy id, then re-activate it. */
  function EnsureUser(users: seq<Record>, username: string, create: CreateReply): (p: UserPhase)
    ensures CreateUser(username) in p.effects <==> !Truthy(FirstIdByName(users, username))
    ensures p.UserFailed? <==> !Truthy(FirstIdByName(users, username)) && create.status != UserCreatedStatus
    ensures p.UserFailed? ==> forall e :: e in p.effects ==> !e.ActivateUser?
    ensures p.UserReady? ==>
      |p.effects| > 0 && p.effects[|p.effects| - 1] == ActivateUser(p.userId) &&
      forall k :: 0 <= k < |p.effects| - 1 ==> !p.effects[k].ActivateUser?
    ensures p.UserReady? ==> p.userId == if Truthy(FirstIdByName(users, username)) then FirstIdByName(users, username) else create.id
    ensures multiset(p.effects)[CreateUser(username)] == if Truthy(FirstIdByName(users, username)) then 0 else 1
    ensures forall e :: e in p.effects ==> e == CreateUser(username) || e.ActivateUser?
  {
    var found := FirstIdByName(users, username);
    if Truthy(found) then UserReady([ActivateUser(found)], found)
    else if create.status != UserCreatedStatus then UserFailed([CreateUser(username)])
    else UserReady([CreateUser(username), ActivateUser(create.id)], create.id)
  }

  /** Only the first listed account with the username is consulted: when it
      has no id, the account is created even if a later entry has one. */
  lemma FirstMatchShadowsLater(users: seq<Record>, username: string, create: CreateReply)
    requires |users| > 0 && users[0].name == Some(username) && users[0].id.None?
    ensures CreateUser(username) in EnsureUser(users, username, create).effects
  {
    assert FirstIdByName(users, username) == None;
  }

  // ---------------------------------------------------------------- projects

  /** The statuses one script accepts: for the project listing, for a project
      create, and for an upload. */
  datatype Site = Site(listOk: int, createOk: int, uploadOk: int)

  /** init_public_user.py accepts 201 everywhere, init_service_user.py 200. */
  const PublicSite := Site(201, 201, 201)
  const ServiceSite := Site(200, 200, 200)

  /** The server's answers in the project phase: the first listing, the answer
      to creating a project (by name), the listing fetched right after that
      create, and the status of each upload (by path). */
  datatype ProjectServer = ProjectServer(
    initial: Listing,
    create: string -> CreateReply,
    refreshAfter: string -> Listing,
    upload: Path -> int)

  /** `projects_resp.json() if projects_resp.status_code == ok else []`. */
  function Accept(l: Listing, okStatus: int): (seen: seq<Record>)
    ensures l.status == okStatus ==> seen == l.body
    ensures l.status != okStatus ==> seen == []
  {
    if l.status == okStatus then l.body else []
  }

  /** A flow subdirectory: its name (the project name) and its flow files. */
  datatype Dir = Dir(name: string, files: seq<string>)

  /** A flows directory: its top-level flow files and its subdirectories. */
  datatype Layout = Layout(topFiles: seq<string>, dirs: seq<Dir>)

  /** How a directory's project was resolved. */
  datatype Resolution = Reused(projectId: string) | Made(newId: Option<string>) | CreateFailed(status: int)

  /** Reuse the first listed project with the name when its id is truthy;
      otherwise create one, and the create succeeds exactly on `createOk`. */
  function Resolve(seen: seq<Record>, name: string, site: Site, srv: ProjectServer): (r: Resolution)
    ensures r.Reused? <==> Truthy(FirstIdByName(seen, name))
    ensures r.Reused? ==> FirstIdByName(seen, name) == Some(r.projectId)
    ensures r.Made? <==> !Truthy(FirstIdByName(seen, name)) && srv.create(name).status == site.createOk
    ensures r.Made? ==> r.newId == srv.create(name).id
  {
    var found := FirstIdByName(seen, name);
    if Truthy(found) then Reused(found.value)
    else
      var reply := srv.create(name);
      if reply.status != site.createOk then CreateFailed(reply.status) else Made(reply.id)
  }

  /** The `folder_id` the uploads of a resolved directory carry. */
  function Folder(r: Resolution): Option<string>
    requires !r.CreateFailed?
  {
    if r.Reused? then Some(r.projectId) else r.newId
  }

  /** What happened to one directory: the listing in effect when it was
      processed, how its project was resolved, and its uploads. */
  datatype DirReport = DirReport(dir: string, seen: seq<Record>, resolution: Resolution, uploads: seq<Upload>)

  function ProcessDir(d: Dir, seen: seq<Record>, site: Site, srv: ProjectServer): (r: DirReport)
    ensures r.dir == d.name && r.resolution == Resolve(seen, d.name, site, srv)
    ensures r.resolution.CreateFailed? ==> r.uploads == []
    ensures !r.resolution.CreateFailed? ==> |r.uploads| == |d.files|
  {
    var resolution := Resolve(seen, d.name, site, srv);
    var uploads := if resolution.CreateFailed? then [] else Uploads(Some(d.name), d.files, InProject(Folder(resolution)), srv.upload);
    DirReport(d.name, seen, resolution, uploads)
  }

  /** The listing the next directory sees: refreshed after a successful
      create, unchanged otherwise. */
  function After(r: DirReport, site: Site, srv: ProjectServer): (next: seq<Record>)
    ensures !r.resolution.Made? ==> next == r.seen
  {
    if r.resolution.Made? then Accept(srv.refreshAfter(r.dir), site.listOk) else r.seen
  }

  /** The directories processed one after the other, starting from listing `seen`. */
  function ReconcileAll(dirs: seq<Dir>, seen: seq<Record>, site: Site, srv: ProjectServer): (reports: seq<DirReport>)
    ensures |reports| == |dirs|
    decreases |dirs|
  {
    if dirs == [] then []
    else
      var first := ProcessDir(dirs[0], seen, site, srv);
      [first] + ReconcileAll(dirs[1..], After(first, site, srv), site, srv)
  }

  /** Every directory gets exactly one report, in order, whatever happened to
      the directories before it: its project is resolved against the listing
      in effect at that point, a refused create leaves the directory without
      uploads, and otherwise each of its files is uploaded with the resolved
      `folder_id`. The listing is refreshed after each successful create. */
  lemma {:induction false} ReconcileAllReports(dirs: seq<Dir>, seen: seq<Record>, site: Site, srv: ProjectServer)
    ensures var reports := ReconcileAll(dirs, seen, site, srv);
      (|dirs| > 0 ==> reports[0].seen == seen) &&
      (forall i :: 0 < i < |dirs| ==> reports[i].seen == After(reports[i - 1], site, srv)) &&
      (forall i :: 0 <= i < |dirs| ==>
        reports[i].dir == dirs[i].name && reports[i].resolution == Resolve(reports[i].seen, dirs[i].name, site, srv)) &&
      (forall i :: 0 <= i < |dirs| && reports[i].resolution.CreateFailed? ==> reports[i].uploads == []) &&
      (forall i :: 0 <= i < |dirs| && !reports[i].resolution.CreateFailed? ==>
        reports[i].uploads == Uploads(Some(dirs[i].name), dirs[i].files, InProject(Folder(reports[i].resolution)), srv.upload))
    decreases |dirs|
  {
    if dirs != [] {
      var first := ProcessDir(dirs[0], seen, site, srv);
      var rest := ReconcileAll(dirs[1..], After(first, site, srv), site, srv);
      ReconcileAllReports(dirs[1..], After(first, site, srv), site, srv);
      var reports := ReconcileAll(dirs, seen, site, srv);
      assert reports == [first] + rest;
      forall i | 0 < i < |dirs|
        ensures reports[i] == rest[i - 1] && dirs[i] == dirs[1..][i - 1]
      {
      }
      assert reports[0] == first && first.seen == seen;
      assert |dirs| > 1 ==> rest[0].seen == After(first, site, srv);
    }
  }

  /** One turn of the per-directory loop: the project looked up by name,
      created when it has no truthy id (the rest of the turn skipped when the
      create is refused, the listing fetched again when it succeeds), and the
      directory's files uploaded into it. */
  method ReconcileDir(d: Dir, projects: seq<Record>, site: Site, srv: ProjectServer)
    returns (report: DirReport, next: seq<Record>, failed: seq<Upload>)
    ensures report == ProcessDir(d, projects, site, srv)
    ensures next == After(report, site, srv)
    ensures failed == Failures(report.uploads, site.uploadOk)
  {
    var projectId := FindProjectId(projects, d.name);
    var resolution: Resolution;
    next := projects;
    if !Truthy(projectId) {
      var reply := srv.create(d.name);
      if reply.status != site.createOk {
        return DirReport(d.name, projects, CreateFailed(reply.status), []), next, [];
      }
      projectId := reply.id;
      next := Accept(srv.refreshAfter(d.name), site.listOk);
      resolution := Made(projectId);
    } else {
      resolution := Reused(projectId.value);
    }
    var uploads;
    uploads, failed := UploadAll(Some(d.name), d.files, InProject(projectId), srv.upload, site.uploadOk);
    report := DirReport(d.name, projects, resolution, uploads);
  }

  /** The reports from directory `i` on: the one for `dirs[i]` first, then
      the rest against the listing it leaves. */
  lemma ReconcileAllFrom(dirs: seq<Dir>, i: nat, seen: seq<Record>, site: Site, srv: ProjectServer,
                         done: seq<DirReport>, report: DirReport, next: seq<Record>)
    requires i < |dirs|
    requires report == ProcessDir(dirs[i], seen, site, srv) && next == After(report, site, srv)
    ensures done + ReconcileAll(dirs[i..], seen, site, srv) == (done + [report]) + ReconcileAll(dirs[i + 1..], next, site, srv)
  {
    assert dirs[i..][0] == dirs[i] && dirs[i..][1..] == dirs[i + 1..];
    assert ReconcileAll(dirs[i..], seen, site, srv) == [report] + ReconcileAll(dirs[i + 1..], next, site, srv);
  }

  /** The uploads of all the directories, in the order they were made. */
  function ProjectUploads(reports: seq<DirReport>): seq<Upload> {
    if reports == [] then [] else ProjectUploads(reports[..|reports| - 1]) + reports[|reports| - 1].uploads
  }

  /** The per-directory loop of both scripts (`for project_dir in glob.glob(...)`),
      with `projects` reassigned as it goes; every refused upload is logged. */
  method ReconcileProjects(dirs: seq<Dir>, initial: seq<Record>, site: Site, srv: ProjectServer)
    returns (reports: seq<DirReport>, failed: seq<Upload>)
    ensures reports == ReconcileAll(dirs, initial, site, srv)
    ensures failed == Failures(ProjectUploads(reports), site.uploadOk)
  {
    var projects := initial;
    reports, failed := [], [];
    for i := 0 to |dirs|
      invariant reports + ReconcileAll(dirs[i..], projects, site, srv) == ReconcileAll(dirs, initial, site, srv)
      invariant failed == Failures(ProjectUploads(reports), site.uploadOk)
    {
      var report, next, more := ReconcileDir(dirs[i], projects, site, srv);
      ReconcileAllFrom(dirs, i, projects, site, srv, reports, report, next);
      FailuresConcat(ProjectUploads(reports), report.uploads, site.uploadOk);
      assert (reports + [report])[..|reports|] == reports;
      reports := reports + [report];
      failed := failed + more;
      projects := next;
    }
    assert dirs[|dirs|..] == [];
  }

  /** A directory whose project create is refused gets no uploads and leaves
      the listing as it was; the directory after it is still processed. */
  lemma FailedCreateSkipsOnlyItsDir(dirs: seq<Dir>, seen: seq<Record>, site: Site, srv: ProjectServer, i: nat)
    requires i < |dirs|
    requires ReconcileAll(dirs, seen, site, srv)[i].resolution.CreateFailed?
    ensures var reports := ReconcileAll(dirs, seen, site, srv);
      reports[i].uploads == [] &&
      (i + 1 < |dirs| ==> reports[i + 1].seen == reports[i].seen && reports[i + 1].dir == dirs[i + 1].name)
  {
    ReconcileAllReports(dirs, seen, site, srv);
  }

  /** The public script accepts the project listing only with status 201: a
      listing served with any other status counts as empty, so the first
      directory is created even when the server lists a project of that name. */
  lemma PublicDiscardsListingNot201(dirs: seq<Dir>, srv: ProjectServer)
    requires |dirs| > 0 && srv.initial.status != 201
    ensures !ReconcileAll(dirs, Accept(srv.initial, PublicSite.listOk), PublicSite, srv)[0].resolution.Reused?
  {
    assert Accept(srv.initial, PublicSite.listOk) == [];
    ReconcileAllReports(dirs, [], PublicSite, srv);
  }
}

=== FILE: service_user.dfy ===
/** init_service_user.py: superuser login with retries, an API key minted
    under the superuser and written to the env file first, the service flows
    uploaded (every subdirectory as a project first, then the top-level files),
    and finally the ids of four named flows written to the env file. */
module ServiceUser {
  import opened Common
  import opened Api
  import opened EnvFile
  import opened Login
  import opened FlowUpload
  import opened Reconcile
  import opened Trace
  import opened FlowIds

  const ServiceKeyName := "LANGFLOW_SERVICE_SECRET_KEY"
  const ServiceKeyLabel := "secret_flows_key"

  /** The server's answers to the service script, in the order it asks. */
  datatype ServiceServer = ServiceServer(
    login: nat -> Attempt,       // superuser login attempt k
    apiKey: Option<string>,      // the "api_key" field of POST /api/v1/api_key/
    projects: ProjectServer,
    flows: FlowsReply)           // GET /api/v1/flows/

  /** The upload phase: the subdirectories reconciled against the listing
      (accepted on 200), then every top-level file with no folder. */
  function UploadEffects(layout: Layout, srv: ServiceServer): seq<Effect> {
    DirEffects(ReconcileAll(layout.dirs, Accept(srv.projects.initial, ServiceSite.listOk), ServiceSite, srv.projects), ServiceSite)
    + FlowEffects(Uploads(None, layout.topFiles, TopLevel, srv.projects.upload))
  }

  /** Every upload of the upload phase, in the order it is made. */
  function ServiceUploads(layout: Layout, srv: ServiceServer): seq<Upload> {
    ProjectUploads(ReconcileAll(layout.dirs, Accept(srv.projects.initial, ServiceSite.listOk), ServiceSite, srv.projects))
    + Uploads(None, layout.topFiles, TopLevel, srv.projects.upload)
  }

  /** The upload phase's calls make exactly the uploads the failure log is
      taken from, and exactly one project create per subdirectory whose
      project was not reused, in order. */
  lemma ServicePhaseTraced(layout: Layout, srv: ServiceServer)
    ensures Uploaded(UploadEffects(layout, srv)) == ServiceUploads(layout, srv)
    ensures Created(UploadEffects(layout, srv)) ==
      ProjectCreates(ReconcileAll(layout.dirs, Accept(srv.projects.initial, ServiceSite.listOk), ServiceSite, srv.projects), ServiceSite)
  {
    var dirs := DirEffects(ReconcileAll(layout.dirs, Accept(srv.projects.initial, ServiceSite.listOk), ServiceSite, srv.projects), ServiceSite);
    var top := FlowEffects(Uploads(None, layout.topFiles, TopLevel, srv.projects.upload));
    UploadedConcat(dirs, top);
    CreatedConcat(dirs, top);
    FlowEffectsUploaded(Uploads(None, layout.topFiles, TopLevel, srv.projects.upload));
    DirEffectsTraced(ReconcileAll(layout.dirs, Accept(srv.projects.initial, ServiceSite.listOk), ServiceSite, srv.projects), ServiceSite);
  }

  /** The env writes of the four flow ids, in order; an absent id is written
      as the text "None". */
  function IdWrites(flows: seq<Record>): (es: seq<Effect>)
    ensures |es| == |TrackedKeys|
    ensures forall t :: 0 <= t < |TrackedKeys| ==> es[t] == WriteEnv(TrackedKeys[t], Render(LastIdByName(flows, TrackedNames[t])))
  {
    var ids := TrackedIds(flows);
    [WriteEnv(ChatbotKey, Render(ids[0])), WriteEnv(CategorizeKey, Render(ids[1])),
     WriteEnv(ReplyKey, Render(ids[2])), WriteEnv(VectorDbKey, Render(ids[3]))]
  }

  /** Steps 2 to 4 of the script: one project per subdirectory with its
      uploads, then the top-level uploads. No project upload follows a
      top-level upload, and nothing is written to the env file. An upload is
      logged as failed exactly when its status is not 200. */
  method UploadServiceFlows(layout: Layout, srv: ServiceServer) returns (effects: seq<Effect>, failed: seq<Upload>)
    ensures effects == UploadEffects(layout, srv)
    ensures ProjectUploadsFirst(effects)
    ensures forall e :: e in effects ==> !e.WriteEnv?
    ensures failed == Failures(ServiceUploads(layout, srv), ServiceSite.uploadOk)
    ensures forall u :: u in failed <==> u in ServiceUploads(layout, srv) && u.status != 200
  {
    var reports, dirFailed := ReconcileProjects(layout.dirs, Accept(srv.projects.initial, ServiceSite.listOk), ServiceSite, srv.projects);
    var top, topFailed := UploadAll(None, layout.topFiles, TopLevel, srv.projects.upload, ServiceSite.uploadOk);
    FailuresConcat(ProjectUploads(reports), top, ServiceSite.uploadOk);
    failed := dirFailed + topFailed;
    effects := DirEffects(reports, ServiceSite) + FlowEffects(top);
    DirEffectsInProjects(layout.dirs, Accept(srv.projects.initial, ServiceSite.listOk), ServiceSite, srv.projects);
    TopLevelEffects(layout.topFiles, srv.projects.upload);
    ProjectsThenTopLevel(DirEffects(reports, ServiceSite), FlowEffects(top));
  }

  /** Four writes in a row, one per tracked key, unfold into the nested
      updates. */
  lemma SetKeysTracked(env0: seq<string>, values: seq<string>)
    requires |values| == |TrackedKeys|
    ensures SetKeys(env0, TrackedKeys, values) ==
      SetKey(SetKey(SetKey(SetKey(env0, ChatbotKey, values[0]), CategorizeKey, values[1]), ReplyKey, values[2]), VectorDbKey, values[3])
  {
    var k1, v1 := TrackedKeys[1..], values[1..];
    var k2, v2 := k1[1..], v1[1..];
    var k3, v3 := k2[1..], v2[1..];
    assert k1 == [CategorizeKey, ReplyKey, VectorDbKey] && v1[0] == values[1];
    assert k2 == [ReplyKey, VectorDbKey] && v2[0] == values[2];
    assert k3 == [VectorDbKey] && v3[0] == values[3] && k3[1..] == [];
    var e1 := SetKey(env0, ChatbotKey, values[0]);
    var e2 := SetKey(e1, CategorizeKey, values[1]);
    var e3 := SetKey(e2, ReplyKey, values[2]);
    var e4 := SetKey(e3, VectorDbKey, values[3]);
    assert SetKeys(e4, k3[1..], v3[1..]) == e4;
    assert SetKeys(e3, k3, v3) == e4;
    assert SetKeys(e2, k2, v2) == e4;
    assert SetKeys(e1, k1, v1) == e4;
  }

  /** After the four writes each tracked key's line holds its flow's id, or
      the text "None" when no flow has the tracked name. */
  lemma IdsWritten(env0: seq<string>, flows: seq<Record>)
    ensures forall t :: 0 <= t < |TrackedKeys| ==>
      EnvLine(TrackedKeys[t], Render(LastIdByName(flows, TrackedNames[t]))) in SetKeys(env0, TrackedKeys, Rendered(TrackedIds(flows)))
  {
    TrackedKeysPlain();
    SetKeysWritesAll(env0, TrackedKeys, Rendered(TrackedIds(flows)));
  }

  /** Step 5 after a successful fetch: the four ids extracted and written, in
      order. */
  method WriteFlowIds(env0: seq<string>, flows: seq<Record>) returns (env: seq<string>, effects: seq<Effect>)
    ensures env == SetKeys(env0, TrackedKeys, Rendered(TrackedIds(flows)))
    ensures effects == IdWrites(flows)
  {
    var chatbot, categorize, reply, embedding := ExtractFlowIds(flows);
    env := AddValue(env0, ChatbotKey, Render(chatbot));
    env := AddValue(env, CategorizeKey, Render(categorize));
    env := AddValue(env, ReplyKey, Render(reply));
    env := AddValue(env, VectorDbKey, Render(embedding));
    effects := [WriteEnv(ChatbotKey, Render(chatbot)), WriteEnv(CategorizeKey, Render(categorize)),
                WriteEnv(ReplyKey, Render(reply)), WriteEnv(VectorDbKey, Render(embedding))];
    SetKeysTracked(env0, Rendered(TrackedIds(flows)));
  }

  /** Step 5: the flow listing fetched; on status 200 the ids are written,
      otherwise the run stops with the env file as it was. Only env writes
      are made. */
  method RecordFlowIds(env0: seq<string>, reply: FlowsReply) returns (ok: bool, env: seq<string>, effects: seq<Effect>)
    ensures ok <==> reply.status == 200
    ensures !ok ==> env == env0 && effects == []
    ensures ok ==> env == SetKeys(env0, TrackedKeys, Rendered(TrackedIds(ListedFlows(reply))))
    ensures ok ==> effects == IdWrites(ListedFlows(reply))
    ensures ok ==> forall t :: 0 <= t < |TrackedKeys| ==>
      EnvLine(TrackedKeys[t], Render(LastIdByName(ListedFlows(reply), TrackedNames[t]))) in env
    ensures forall e :: e in effects ==> !e.Flow?
  {
    if reply.status != 200 {
      return false, env0, [];
    }
    ok := true;
    env, effects := WriteFlowIds(env0, ListedFlows(reply));
    IdsWritten(env0, ListedFlows(reply));
  }

  /** One run of the script against the env-file lines `env0` (empty when the
      file is missing). */
  method RunService(env0: seq<string>, layout: Layout, srv: ServiceServer) returns (run: Run)
    ensures run.login == RetryLogin(srv.login)
    ensures run.exit == Completed <==> Truthy(run.login.token) && Truthy(srv.apiKey) && srv.flows.status == 200
    ensures !Truthy(run.login.token) ==> run.effects == [] && run.env == env0
    ensures Truthy(run.login.token) && !Truthy(srv.apiKey) ==>
      run.exit == Fatal && run.effects == [MintApiKey(ServiceKeyLabel)] && run.env == env0
    ensures Truthy(run.login.token) && Truthy(srv.apiKey) && srv.flows.status != 200 ==>
      run.effects == [MintApiKey(ServiceKeyLabel), WriteEnv(ServiceKeyName, srv.apiKey.value)] + UploadEffects(layout, srv) &&
      run.env == SetKey(env0, ServiceKeyName, srv.apiKey.value)
    ensures run.exit == Completed && srv.apiKey.Some? ==>
      run.effects == [MintApiKey(ServiceKeyLabel), WriteEnv(ServiceKeyName, srv.apiKey.value)] + UploadEffects(layout, srv)
        + IdWrites(ListedFlows(srv.flows))
    ensures run.exit == Completed && srv.apiKey.Some? ==>
      run.env == SetKeys(SetKey(env0, ServiceKeyName, srv.apiKey.value), TrackedKeys, Rendered(TrackedIds(ListedFlows(srv.flows))))
    ensures run.exit == Completed ==> forall t :: 0 <= t < |TrackedKeys| ==>
      EnvLine(TrackedKeys[t], Render(LastIdByName(ListedFlows(srv.flows), TrackedNames[t]))) in run.env
    ensures ProjectUploadsFirst(run.effects)
    ensures Truthy(run.login.token) && Truthy(srv.apiKey) ==> run.failed == Failures(ServiceUploads(layout, srv), ServiceSite.uploadOk)
    ensures !(Truthy(run.login.token) && Truthy(srv.apiKey)) ==> run.failed == []
  {
    var login := RetryLoginLoop(srv.login);
    if !Truthy(login.token) {
      return Run(Fatal, login, [], env0, []);
    }
    if !Truthy(srv.apiKey) {
      return Run(Fatal, login, [MintApiKey(ServiceKeyLabel)], env0, []);
    }
    var apiKey := srv.apiKey.value;
    var env := AddValue(env0, ServiceKeyName, apiKey);
    var head := [MintApiKey(ServiceKeyLabel), WriteEnv(ServiceKeyName, apiKey)];
    var uploads, failed := UploadServiceFlows(layout, srv);
    AppendKeepsOrder(head, uploads);
    var ok, writes;
    ok, env, writes := RecordFlowIds(env, srv.flows);
    SuffixKeepsOrder(head + uploads, writes);
    run := Run(if ok then Completed else Fatal, login, head + uploads + writes, env, failed);
  }
}

=== FILE: trace.dfy ===
/** The record of one run: how it ended, the login loop's outcome, the calls
    that changed server or file state in order, the env-file lines left
    behind, and the uploads logged as failed. */
module Trace {
  import opened Common
  import opened Api
  import opened Login
  import opened FlowUpload
  import opened Reconcile

  datatype Run = Run(exit: Exit, login: LoginResult, effects: seq<Effect>, env: seq<string>, failed: seq<Upload>)

  predicate IsProjectUpload(e: Effect) {
    e.Flow? && e.upload.target.InProject?
  }

  predicate IsTopLevelUpload(e: Effect) {
    e.Flow? && e.upload.target.TopLevel?
  }

  /** No top-level upload comes after an upload into a project. */
  predicate TopLevelUploadsFirst(es: seq<Effect>) {
    forall i, j :: 0 <= i < j < |es| && IsProjectUpload(es[i]) ==> !IsTopLevelUpload(es[j])
  }

  /** No upload into a project comes after a top-level upload. */
  predicate ProjectUploadsFirst(es: seq<Effect>) {
    forall i, j :: 0 <= i < j < |es| && IsTopLevelUpload(es[i]) ==> !IsProjectUpload(es[j])
  }

  /** The calls made for one directory: the project create, unless the
      project was reused, then its uploads. */
  function ReportEffects(r: DirReport, site: Site): (es: seq<Effect>)
    ensures r.resolution.Reused? ==> forall e :: e in es ==> !e.CreateProject?
    ensures !r.resolution.Reused? ==>
      |es| > 0 && es[0] == CreateProject(r.dir, if r.resolution.Made? then site.createOk else r.resolution.status) &&
      forall k :: 0 < k < |es| ==> !es[k].CreateProject?
    ensures |es| == |r.uploads| + if r.resolution.Reused? then 0 else 1
  {
    CreateOf(r, site) + FlowEffects(r.uploads)
  }

  /** The project create a directory's turn issues, with the status it got:
      none when the project was reused. */
  function CreateOf(r: DirReport, site: Site): (cs: seq<Effect>)
    ensures |cs| == if r.resolution.Reused? then 0 else 1
  {
    match r.resolution
    case Reused(_) => []
    case Made(_) => [CreateProject(r.dir, site.createOk)]
    case CreateFailed(status) => [CreateProject(r.dir, status)]
  }

  /** The project creates expected of the directory phase: one per directory
      whose project was not reused, in directory order. */
  function ProjectCreates(reports: seq<DirReport>, site: Site): (cs: seq<Effect>)
    ensures |cs| <= |reports|
  {
    if reports == [] then [] else ProjectCreates(reports[..|reports| - 1], site) + CreateOf(reports[|reports| - 1], site)
  }

  /** The uploads a trace makes, in order. */
  function Uploaded(es: seq<Effect>): seq<Upload> {
    if es == [] then [] else (if es[0].Flow? then [es[0].upload] else []) + Uploaded(es[1..])
  }

  /** The project creates a trace makes, in order. */
  function Created(es: seq<Effect>): seq<Effect> {
    if es == [] then [] else (if es[0].CreateProject? then [es[0]] else []) + Created(es[1..])
  }

  lemma {:induction false} UploadedConcat(a: seq<Effect>, b: seq<Effect>)
    ensures Uploaded(a + b) == Uploaded(a) + Uploaded(b)
    decreases |a|
  {
    if a == [] {
      assert a + b == b;
    } else {
      assert (a + b)[0] == a[0] && (a + b)[1..] == a[1..] + b;
      UploadedConcat(a[1..], b);
    }
  }

  lemma {:induction false} CreatedConcat(a: seq<Effect>, b: seq<Effect>)
    ensures Created(a + b) == Created(a) + Created(b)
    decreases |a|
  {
    if a == [] {
      assert a + b == b;
    } else {
      assert (a + b)[0] == a[0] && (a + b)[1..] == a[1..] + b;
      CreatedConcat(a[1..], b);
    }
  }

  /** The trace of a sequence of uploads makes exactly those uploads and no
      project create. */
  lemma {:induction false} FlowEffectsUploaded(us: seq<Upload>)
    ensures Uploaded(FlowEffects(us)) == us && Created(FlowEffects(us)) == []
    decreases |us|
  {
    if us != [] {
      var fe := FlowEffects(us);
      assert fe[0] == Flow(us[0]) && fe[1..] == FlowEffects(us[1..]);
      FlowEffectsUploaded(us[1..]);
    }
  }

  /** A directory's calls make exactly its uploads and its create. */
  lemma ReportEffectsTraced(r: DirReport, site: Site)
    ensures Uploaded(ReportEffects(r, site)) == r.uploads
    ensures Created(ReportEffects(r, site)) == CreateOf(r, site)
  {
    var cs := CreateOf(r, site);
    UploadedConcat(cs, FlowEffects(r.uploads));
    CreatedConcat(cs, FlowEffects(r.uploads));
    FlowEffectsUploaded(r.uploads);
    if cs != [] {
      assert cs[1..] == [];
    }
  }

  /** The uploads and creates expected of a directory followed by others:
      that directory's, then the others'. */
  lemma {:induction false} ProjectUploadsCons(r: DirReport, rest: seq<DirReport>)
    ensures ProjectUploads([r] + rest) == r.uploads + ProjectUploads(rest)
    decreases |rest|
  {
    var t := [r] + rest;
    if rest == [] {
      assert t[..|t| - 1] == [];
    } else {
      var init := rest[..|rest| - 1];
      assert t[..|t| - 1] == [r] + init && t[|t| - 1] == rest[|rest| - 1];
      ProjectUploadsCons(r, init);
    }
  }

  lemma {:induction false} ProjectCreatesCons(r: DirReport, rest: seq<DirReport>, site: Site)
    ensures ProjectCreates([r] + rest, site) == CreateOf(r, site) + ProjectCreates(rest, site)
    decreases |rest|
  {
    var t := [r] + rest;
    if rest == [] {
      assert t[..|t| - 1] == [];
    } else {
      var init := rest[..|rest| - 1];
      assert t[..|t| - 1] == [r] + init && t[|t| - 1] == rest[|rest| - 1];
      ProjectCreatesCons(r, init, site);
    }
  }

  /** The directory phase makes exactly the directories' uploads and exactly
      one project create per directory whose project was not reused, both in
      directory order. */
  lemma {:induction false} DirEffectsTraced(reports: seq<DirReport>, site: Site)
    ensures Uploaded(DirEffects(reports, site)) == ProjectUploads(reports)
    ensures Created(DirEffects(reports, site)) == ProjectCreates(reports, site)
    decreases |reports|
  {
    if reports != [] {
      var first, rest := reports[0], reports[1..];
      assert reports == [first] + rest;
      ProjectUploadsCons(first, rest);
      ProjectCreatesCons(first, rest, site);
      DirEffectsTraced(rest, site);
      UploadedConcat(ReportEffects(first, site), DirEffects(rest, site));
      CreatedConcat(ReportEffects(first, site), DirEffects(rest, site));
      ReportEffectsTraced(first, site);
    }
  }

  /** The calls of all the directories, one directory after the other. */
  function DirEffects(reports: seq<DirReport>, site: Site): (es: seq<Effect>)
    ensures forall e :: e in es ==> e.CreateProject? || e.Flow?
    ensures forall r :: r in reports ==> forall u :: u in r.uploads ==> Flow(u) in es
  {
    if reports == [] then [] else ReportEffects(reports[0], site) + DirEffects(reports[1..], site)
  }

  /** One directory's calls make no top-level upload and write nothing to
      the env file. */
  lemma ProcessDirInProject(d: Dir, seen: seq<Record>, site: Site, srv: ProjectServer)
    ensures forall e :: e in ReportEffects(ProcessDir(d, seen, site, srv), site) ==> !IsTopLevelUpload(e) && !e.WriteEnv?
  {
    var r := ProcessDir(d, seen, site, srv);
    var fe := FlowEffects(r.uploads);
    assert forall k :: 0 <= k < |fe| ==> fe[k].upload.target.InProject?;
  }

  /** The directory phase makes no top-level upload and writes nothing to the
      env file. */
  lemma {:induction false} DirEffectsInProjects(dirs: seq<Dir>, seen: seq<Record>, site: Site, srv: ProjectServer)
    ensures forall e :: e in DirEffects(ReconcileAll(dirs, seen, site, srv), site) ==> !IsTopLevelUpload(e) && !e.WriteEnv?
    decreases |dirs|
  {
    if dirs != [] {
      var first := ProcessDir(dirs[0], seen, site, srv);
      var rest := ReconcileAll(dirs[1..], After(first, site, srv), site, srv);
      DirEffectsInProjects(dirs[1..], After(first, site, srv), site, srv);
      ProcessDirInProject(dirs[0], seen, site, srv);
      var reports := ReconcileAll(dirs, seen, site, srv);
      assert reports == [first] + rest;
      assert reports[0] == first && reports[1..] == rest;
      assert DirEffects(reports, site) == ReportEffects(first, site) + DirEffects(rest, site);
    }
  }

  /** Top-level uploads make no project upload and write nothing to the env file. */
  lemma TopLevelEffects(files: seq<string>, status: Path -> int)
    ensures forall e :: e in FlowEffects(Uploads(None, files, TopLevel, status)) ==> !IsProjectUpload(e) && !e.WriteEnv?
  {
  }

  lemma ProjectsThenTopLevel(a: seq<Effect>, b: seq<Effect>)
    requires forall e :: e in a ==> !IsTopLevelUpload(e)
    requires forall e :: e in b ==> !IsProjectUpload(e)
    ensures ProjectUploadsFirst(a + b)
  {
    var es := a + b;
    forall k | 0 <= k < |a|
      ensures !IsTopLevelUpload(es[k])
    {
      assert es[k] == a[k] && a[k] in a;
    }
    forall i, j | 0 <= i < j < |es| && IsTopLevelUpload(es[i])
      ensures !IsProjectUpload(es[j])
    {
      assert i >= |a|;
      assert es[j] == b[j - |a|] && b[j - |a|] in b;
    }
  }

  lemma TopLevelThenProjects(a: seq<Effect>, b: seq<Effect>)
    requires forall e :: e in a ==> !IsProjectUpload(e)
    requires forall e :: e in b ==> !IsTopLevelUpload(e)
    ensures TopLevelUploadsFirst(a + b)
  {
    var es := a + b;
    forall k | 0 <= k < |a|
      ensures !IsProjectUpload(es[k])
    {
      assert es[k] == a[k] && a[k] in a;
    }
    forall i, j | 0 <= i < j < |es| && IsProjectUpload(es[i])
      ensures !IsTopLevelUpload(es[j])
    {
      assert i >= |a|;
      assert es[j] == b[j - |a|] && b[j - |a|] in b;
    }
  }

  /** Calls that upload nothing, put in front, keep the upload order. */
  lemma AppendKeepsOrder(a: seq<Effect>, b: seq<Effect>)
    requires forall e :: e in a ==> !e.Flow?
    ensures TopLevelUploadsFirst(b) ==> TopLevelUploadsFirst(a + b)
    ensures ProjectUploadsFirst(b) ==> ProjectUploadsFirst(a + b)
  {
    var es := a + b;
    forall k | 0 <= k < |a|
      ensures !es[k].Flow?
    {
      assert es[k] == a[k] && a[k] in a;
    }
    forall i | |a| <= i < |es|
      ensures es[i] == b[i - |a|]
    {
    }
  }

  /** Calls that upload nothing, put behind, keep the upload order. */
  lemma SuffixKeepsOrder(a: seq<Effect>, b: seq<Effect>)
    requires forall e :: e in b ==> !e.Flow?
    ensures TopLevelUploadsFirst(a) ==> TopLevelUploadsFirst(a + b)
    ensures ProjectUploadsFirst(a) ==> ProjectUploadsFirst(a + b)
  {
    var es := a + b;
    forall k | |a| <= k < |es|
      ensures !es[k].Flow?
    {
      assert es[k] == b[k - |a|] && b[k - |a|] in b;
    }
    forall i | 0 <= i < |a|
      ensures es[i] == a[i]
    {
    }
  }
}

=== FILE: uploads.dfy ===
/** The upload loops: every flow file of one directory is posted, one at a
    time, and a failed upload does not stop the loop. The status each upload
    gets is `status(path)`. */
module FlowUpload {
  import opened Common
  import opened Api

  /** The uploads of `files` (all in directory `dir`) to `target`, in order. */
  function Uploads(dir: Option<string>, files: seq<string>, target: Target, status: Path -> int): (us: seq<Upload>)
    ensures |us| == |files|
    ensures forall k :: 0 <= k < |files| ==> us[k] == Upload(Path(dir, files[k]), target, status(Path(dir, files[k])))
    decreases |files|
  {
    if files == [] then []
    else
      var last := Path(dir, files[|files| - 1]);
      Uploads(dir, files[..|files| - 1], target, status) + [Upload(last, target, status(last))]
  }

  /** The uploads of the first `k + 1` files: those of the first `k`, then
      file `k`'s. */
  lemma UploadsStep(dir: Option<string>, files: seq<string>, target: Target, status: Path -> int, k: nat)
    requires k < |files|
    ensures Uploads(dir, files[..k + 1], target, status)
      == Uploads(dir, files[..k], target, status) + [Upload(Path(dir, files[k]), target, status(Path(dir, files[k])))]
  {
    assert files[..k + 1][..k] == files[..k];
  }

  /** The `for flow_file in glob.glob(...)` upload loop. Each upload whose
      status is not `okStatus` takes the "Failed to upload" branch and is
      logged in `failed`; the loop goes on either way. */
  method UploadAll(dir: Option<string>, files: seq<string>, target: Target, status: Path -> int, okStatus: int)
    returns (us: seq<Upload>, failed: seq<Upload>)
    ensures us == Uploads(dir, files, target, status)
    ensures failed == Failures(us, okStatus)
  {
    us, failed := [], [];
    for k := 0 to |files|
      invariant us == Uploads(dir, files[..k], target, status)
      invariant failed == Failures(us, okStatus)
    {
      var path := Path(dir, files[k]);
      var upload := Upload(path, target, status(path));
      UploadsStep(dir, files, target, status, k);
      FailuresAppend(us, upload, okStatus);
      if upload.status != okStatus {
        failed := failed + [upload];
      }
      us := us + [upload];
    }
    assert files[..|files|] == files;
  }

  /** The uploads of a run that the server refused (`okStatus` is the status
      the script counts as success); they are logged and skipped. */
  function Failures(us: seq<Upload>, okStatus: int): (fs: seq<Upload>)
    ensures forall u :: u in fs ==> u in us && u.status != okStatus
    ensures forall u :: u in us && u.status != okStatus ==> u in fs
  {
    if us == [] then []
    else (if us[0].status != okStatus then [us[0]] else []) + Failures(us[1..], okStatus)
  }

  /** Logging one more upload extends the failures by it exactly when it was
      refused. */
  lemma {:induction false} FailuresAppend(us: seq<Upload>, u: Upload, okStatus: int)
    ensures Failures(us + [u], okStatus) == Failures(us, okStatus) + (if u.status != okStatus then [u] else [])
    decreases |us|
  {
    if us != [] {
      assert (us + [u])[1..] == us[1..] + [u];
      FailuresAppend(us[1..], u, okStatus);
    } else {
      assert ([] + [u])[1..] == [];
    }
  }

  /** The failures of two runs of uploads, one after the other, are the
      failures of the first followed by those of the second. */
  lemma {:induction false} FailuresConcat(us: seq<Upload>, vs: seq<Upload>, okStatus: int)
    ensures Failures(us + vs, okStatus) == Failures(us, okStatus) + Failures(vs, okStatus)
    decreases |us|
  {
    if us == [] {
      assert [] + vs == vs;
    } else {
      assert (us + vs)[0] == us[0] && (us + vs)[1..] == us[1..] + vs;
      FailuresConcat(us[1..], vs, okStatus);
    }
  }

  /** A refused upload is among the logged failures, and every later file of
      the directory is still uploaded. */
  lemma FailedUploadContinues(dir: Option<string>, files: seq<string>, target: Target, status: Path -> int, okStatus: int, k: nat)
    requires k < |files| && status(Path(dir, files[k])) != okStatus
    ensures var us := Uploads(dir, files, target, status);
      us[k] in Failures(us, okStatus) &&
      forall m :: k < m < |files| ==> us[m].path == Path(dir, files[m]) && us[m].target == target
  {
  }

  /** The effects a sequence of uploads stands for. */
  function FlowEffects(us: seq<Upload>): (es: seq<Effect>)
    ensures |es| == |us|
    ensures forall k :: 0 <= k < |us| ==> es[k] == Flow(us[k])
  {
    if us == [] then [] else [Flow(us[0])] + FlowEffects(us[1..])
  }
}
